=== FILE: README.md ===
# jupyter-kernel-exec, modelled in Dafny

`jupyter_kernel_exec.py` runs a piece of code on a kernel that is already
running on a Jupyter server, through the server's REST and websocket API. It
works in four steps:

1. It finds the servers: either the one `--base-url` names, or the ones
   `jupyter server list --jsonlist` reports.
2. It collects one record per session that every server's `/api/sessions`
   lists.
3. It picks exactly one kernel. The kernel is named either by `--kernel-id`
   or by `--kernel-match`. A `--kernel-match` value is one of two things:
   - a `re:` pattern;
   - a plain reference, matched against the session's notebook path and
     name. The path and name are first normalised: backslashes become
     slashes, and the VS Code `-jvsc-…` and UUID suffixes before `.ipynb`
     are dropped.
4. It sends one `execute_request` over the kernel's channels websocket. It
   then reads the kernel's replies until the kernel reports `idle` for that
   request, and prints the outputs or a JSON summary.

This project models steps 2 to 4 and the argument decisions of `main`. The
model leaves the process, the network and the terminal out and works on
their data instead:

- the server listing becomes a sequence of `ServerItem`s;
- each HTTP answer comes from a function `Http.get`;
- `re` is an abstract `Regex`;
- the websocket's messages are a sequence of `Reply` values;
- what would be printed is a sequence of `Render` values.

Modules, in dependency order:

- `Seqs`: the `Option` and `Result` datatypes; `FlatMap` and `Filter`, the
  two comprehension shapes the script is made of.
- `Text`: the Python string operations the script uses. They are
  `rstrip`, `replace`, `lower`, `in`, `startswith`, `os.path.basename` and
  `os.path.splitext`.
- `Urls`: `_add_token`, `_normalize_base_url` and `_build_ws_url`.
- `SessionNames`: `_normalize_session_value`, `_session_strings`,
  `_notebook_like_match` and the two session matchers.
- `Directory`: `discover_servers`' mapping of listed servers, then
  `_query_sessions` and `_collect_records`.
- `Resolver`: `resolve_kernel_target` and `_record_line`.
- `Execute`: the request `execute_code` sends, its reply loop and its
  summary.
- `Cli`: the decisions of `main`. They are which servers to search, when
  the kernel id is used without a search, which code source is read, and
  the `\n` unescaping of `--code`.

Loops of the script are methods proved against specification functions:

- `SessionStrings`, `SessionMatchesSubstring` and `SessionMatchesRegex`;
- `ServersFromList`, `CollectRecords` and its inner loop `KernelRecords`;
- `MatchRecords`, `CandidateLines` and `ResolveKernelTarget`;
- `ReadReplies`, whose loop body is `Advance`.

The properties are then proved about those functions.

## Model

All source paths are in `skills/jupyter-kernel-api/scripts/`. They are
written out in full in the table.

| member | source | states |
|---|---|---|
| Text.Basename | skills/jupyter-kernel-api/scripts/jupyter_kernel_exec.py:52-54 | the basename is a suffix of the path without '/', and it is the whole path or follows a '/' |
| Text.BasenameUnique | skills/jupyter-kernel-api/scripts/jupyter_kernel_exec.py:62-63 | any '/'-free suffix that starts the path or follows a '/' is the basename |
| Text.BasenameUnderDirectory | skills/jupyter-kernel-api/scripts/jupyter_kernel_exec.py:62-63 | a directory prefix does not change the basename |
| Text.SplitExt | skills/jupyter-kernel-api/scripts/jupyter_kernel_exec.py:64-65 | stem followed by extension is the input; a non-empty extension is one dot followed by neither dots nor slashes |
| Text.SplitExtHasExtension | skills/jupyter-kernel-api/scripts/jupyter_kernel_exec.py:64-65 | there is an extension exactly when the last path component has a dot preceded somewhere in that component by a non-dot character |
| Text.SplitExtAt | skills/jupyter-kernel-api/scripts/jupyter_kernel_exec.py:64-65 | a name that does not start with a dot splits at its last dot |
| Text.SplitExtNoDot | skills/jupyter-kernel-api/scripts/jupyter_kernel_exec.py:64-65 | a name without a dot has an empty extension |
| Text.LowerAt | skills/jupyter-kernel-api/scripts/jupyter_kernel_exec.py:69 | lowering keeps the length and lowers every character on its own |
| Text.RStrip | skills/jupyter-kernel-api/scripts/jupyter_kernel_exec.py:28 | the result is a prefix, does not end with the character, and everything dropped was that character |
| Text.ReplaceCharAt | skills/jupyter-kernel-api/scripts/jupyter_kernel_exec.py:32 | every occurrence of the character is replaced and every other character is kept, at the same position |
| Text.ReplaceCharRemoves | skills/jupyter-kernel-api/scripts/jupyter_kernel_exec.py:32 | the replaced character no longer occurs |
| Text.ReplaceCharAbsent | skills/jupyter-kernel-api/scripts/jupyter_kernel_exec.py:32 | a string without the character is unchanged |
| Urls.NormalizeBaseUrl | skills/jupyter-kernel-api/scripts/jupyter_kernel_exec.py:27-28 | the normalised URL is a prefix of the input that does not end with '/', and only slashes were dropped |
| Urls.NormalizeBaseUrlIdempotent | skills/jupyter-kernel-api/scripts/jupyter_kernel_exec.py:27-28 | normalising twice gives the same URL as normalising once |
| Urls.NormalizeBaseUrlIgnoresTrailingSlashes | skills/jupyter-kernel-api/scripts/jupyter_kernel_exec.py:27-28 | any number of extra trailing slashes give the same base URL |
| Urls.AddToken | skills/jupyter-kernel-api/scripts/jupyter_kernel_exec.py:14-18 | a missing or empty token leaves the URL alone; otherwise the URL is extended by `token=<quoted token>`, after '&' exactly when the URL already has a '?' and after '?' otherwise |
| Urls.WsScheme | skills/jupyter-kernel-api/scripts/jupyter_kernel_exec.py:92 | the scheme is `wss` exactly for `https`, and `ws` for every other scheme |
| Urls.ChannelsPath | skills/jupyter-kernel-api/scripts/jupyter_kernel_exec.py:93-94 | reference definition of the channels path: the base path without trailing slashes, then `/api/kernels/<id>/channels`; BuildWsUrlIgnoresTrailingSlashes is stated through it |
| Urls.Unparse | skills/jupyter-kernel-api/scripts/jupyter_kernel_exec.py:96 | reference definition of the `urlunparse` call with empty params, query and fragment (its version-dependent case is under "## Left out"); BuildWsUrl is built on it |
| Urls.BuildWsUrl | skills/jupyter-kernel-api/scripts/jupyter_kernel_exec.py:90-97 | the URL is the ws scheme, `://`, the netloc, the slash-led channels path under the base path, and then the token query and nothing else |
| Urls.BuildWsUrlIgnoresTrailingSlashes | skills/jupyter-kernel-api/scripts/jupyter_kernel_exec.py:93-95 | a trailing slash on the base path does not change the websocket URL |
| Urls.BuildWsUrlTokenStartsQuery | skills/jupyter-kernel-api/scripts/jupyter_kernel_exec.py:96-97 | without a '?' in the URL's parts, the token is appended as `?token=…` |
| SessionNames.DotFreeMeans | skills/jupyter-kernel-api/scripts/jupyter_kernel_exec.py:33 | the recursive `[^.]+` check holds exactly when no character in the range is a dot |
| SessionNames.FirstJvscLeftmost | skills/jupyter-kernel-api/scripts/jupyter_kernel_exec.py:33 | the search finds the leftmost position where `-jvsc-`, a dot-free tag and `.ipynb` end the string, or reports that there is none |
| SessionNames.StripJvscLeftmost | skills/jupyter-kernel-api/scripts/jupyter_kernel_exec.py:33 | without a match the value is unchanged; with one, everything from the leftmost `-jvsc-` match up to `.ipynb` is removed |
| SessionNames.StripJvscChars | skills/jupyter-kernel-api/scripts/jupyter_kernel_exec.py:33 | the removal introduces no new character |
| SessionNames.HexRunMeans | skills/jupyter-kernel-api/scripts/jupyter_kernel_exec.py:35-38 | the recursive hex check holds exactly when every character in the range is a hex digit under case folding |
| SessionNames.StripUuidMatch | skills/jupyter-kernel-api/scripts/jupyter_kernel_exec.py:34-39 | without a UUID suffix before a case-insensitive `.ipynb` the value is unchanged; with one, exactly those 37 characters are removed |
| SessionNames.StripUuidChars | skills/jupyter-kernel-api/scripts/jupyter_kernel_exec.py:34-39 | the removal introduces no new character |
| SessionNames.StripJvsc | skills/jupyter-kernel-api/scripts/jupyter_kernel_exec.py:33 | reference definition of the `-jvsc-` stage, which FirstJvscLeftmost, StripJvscLeftmost and StripJvscChars describe |
| SessionNames.StripUuid | skills/jupyter-kernel-api/scripts/jupyter_kernel_exec.py:34-39 | reference definition of the UUID stage, which StripUuidMatch and StripUuidChars describe |
| SessionNames.NormalizeSessionValue | skills/jupyter-kernel-api/scripts/jupyter_kernel_exec.py:31-40 | reference definition of `_normalize_session_value`, the composition of the three stages, which the Normalize* lemmas below describe |
| SessionNames.NormalizeRemovesBackslashes | skills/jupyter-kernel-api/scripts/jupyter_kernel_exec.py:31-40 | a normalised value holds no backslash |
| SessionNames.NormalizeSessionValueStages | skills/jupyter-kernel-api/scripts/jupyter_kernel_exec.py:31-40 | normalisation replaces backslashes, then removes the `-jvsc-` suffix, then the UUID suffix, each stage as its own lemma describes |
| SessionNames.NormalizeWithoutSuffix | skills/jupyter-kernel-api/scripts/jupyter_kernel_exec.py:31-40 | a value with neither suffix only has its backslashes replaced |
| SessionNames.NormalizeDropsJvsc | skills/jupyter-kernel-api/scripts/jupyter_kernel_exec.py:31-40 | for a stem in which no `-jvsc-` marker starts (dashes are allowed), `stem-jvsc-<tag>.ipynb` with a non-empty dot-free tag normalises to what the UUID stage makes of the slashed stem and `.ipynb`: the slashed stem and `.ipynb` unless the stem itself ends in a UUID |
| SessionNames.NormalizeDropsUuid | skills/jupyter-kernel-api/scripts/jupyter_kernel_exec.py:31-40 | for a stem in which no `-jvsc-` marker starts (dashes are allowed), `stem-<uuid><ext>` normalises to the slashed stem followed by ext, for any case-insensitive `.ipynb` ext |
| SessionNames.NormalizeJvscExample | skills/jupyter-kernel-api/scripts/jupyter_kernel_exec.py:33 | `notebook-jvsc-abc123.ipynb` normalises to `notebook.ipynb` |
| SessionNames.NormalizeWindowsExample | skills/jupyter-kernel-api/scripts/jupyter_kernel_exec.py:32-33 | `work\report-jvsc-1a2b.ipynb` normalises to `work/report.ipynb` |
| SessionNames.NormalizeDashedExample | skills/jupyter-kernel-api/scripts/jupyter_kernel_exec.py:33 | example: a dashed name keeps its dashes, `my-notebook-jvsc-1a2b.ipynb` normalises to `my-notebook.ipynb` |
| SessionNames.NormalizePlainExample | skills/jupyter-kernel-api/scripts/jupyter_kernel_exec.py:31-40 | example: `notes.txt`, which has neither suffix, is left as it is (the general case is NormalizeWithoutSuffix) |
| SessionNames.Forms | skills/jupyter-kernel-api/scripts/jupyter_kernel_exec.py:50-55 | there are four candidates per value, and the first is the raw value |
| SessionNames.FieldStrings | skills/jupyter-kernel-api/scripts/jupyter_kernel_exec.py:46-57 | a field contributes its non-empty forms when it is a non-empty string, and nothing otherwise |
| SessionNames.Matchable | skills/jupyter-kernel-api/scripts/jupyter_kernel_exec.py:43-58 | the set holds exactly the non-empty forms of path and name; it is empty exactly when neither is a non-empty string, and it holds the raw path and name when they are |
| SessionNames.AddNonEmpty | skills/jupyter-kernel-api/scripts/jupyter_kernel_exec.py:50-57 | the loop adds exactly the non-empty candidates to the set |
| SessionNames.SessionStrings | skills/jupyter-kernel-api/scripts/jupyter_kernel_exec.py:43-58 | the loop over `path` and `name` returns exactly the matchable set |
| SessionNames.NotebookLikeMatch | skills/jupyter-kernel-api/scripts/jupyter_kernel_exec.py:61-71 | reference definition of `_notebook_like_match`, which the NotebookLikeMatch* lemmas below describe |
| SessionNames.NotebookLikeMatchIgnoresDirectories | skills/jupyter-kernel-api/scripts/jupyter_kernel_exec.py:62-63 | directory prefixes on either side do not change the decision |
| SessionNames.NotebookLikeMatchCandidateDirectory | skills/jupyter-kernel-api/scripts/jupyter_kernel_exec.py:63 | a directory prefix on the candidate does not change the decision |
| SessionNames.NotebookLikeMatchPrefix | skills/jupyter-kernel-api/scripts/jupyter_kernel_exec.py:71 | a matching candidate's basename starts with the query stem |
| SessionNames.NotebookLikeMatchNames | skills/jupyter-kernel-api/scripts/jupyter_kernel_exec.py:64-71 | for names without '/', the decision is made on their stems and extensions, in both directions |
| SessionNames.NotebookLikeMatchSame | skills/jupyter-kernel-api/scripts/jupyter_kernel_exec.py:71 | `report.ipynb` matches itself |
| SessionNames.NotebookLikeMatchDashed | skills/jupyter-kernel-api/scripts/jupyter_kernel_exec.py:69-71 | `report.ipynb` matches `report-1.IPYNB` |
| SessionNames.NotebookLikeMatchLonger | skills/jupyter-kernel-api/scripts/jupyter_kernel_exec.py:71 | `report.ipynb` does not match `reportx.ipynb` |
| SessionNames.NotebookLikeMatchOtherExtension | skills/jupyter-kernel-api/scripts/jupyter_kernel_exec.py:69-70 | `report.ipynb` does not match `report.py` |
| SessionNames.NotebookLikeMatchNoExtension | skills/jupyter-kernel-api/scripts/jupyter_kernel_exec.py:69-71 | a query without an extension, `report`, matches `report.py` |
| SessionNames.NotebookLikeMatchEmpty | skills/jupyter-kernel-api/scripts/jupyter_kernel_exec.py:67-68 | an empty query matches nothing |
| SessionNames.MatchesSubstring | skills/jupyter-kernel-api/scripts/jupyter_kernel_exec.py:74-80 | reference definition of a plain match: some matchable string contains the reference or is notebook-like to it; SessionMatchesSubstring computes it |
| SessionNames.SessionMatchesSubstring | skills/jupyter-kernel-api/scripts/jupyter_kernel_exec.py:74-80 | true exactly when some matchable string contains the reference or is notebook-like to it |
| SessionNames.SessionMatchesRegex | skills/jupyter-kernel-api/scripts/jupyter_kernel_exec.py:83-87 | true exactly when the pattern is found in some matchable string |
| Directory.ServerFromItem | skills/jupyter-kernel-api/scripts/jupyter_kernel_exec.py:135-152 | an item gives a server exactly when its url is a non-empty string; the server has the normalised url, the item's token or else the fallback, and the root dir only when it is a string |
| Directory.ServersFromList | skills/jupyter-kernel-api/scripts/jupyter_kernel_exec.py:133-153 | the loop returns the discovered servers in listing order |
| Directory.DiscoveredMeans | skills/jupyter-kernel-api/scripts/jupyter_kernel_exec.py:133-153 | a server is discovered exactly when some listed item gives it |
| Directory.DiscoveredCount | skills/jupyter-kernel-api/scripts/jupyter_kernel_exec.py:134-137 | there is one server per item with a non-empty string url |
| Directory.DiscoveredUrlsNormalized | skills/jupyter-kernel-api/scripts/jupyter_kernel_exec.py:148 | no discovered base URL ends with '/' |
| Directory.Sessions | skills/jupyter-kernel-api/scripts/jupyter_kernel_exec.py:161 | reference definition of the mapping entries of the listing, in order, which SessionsMember and SessionsInOrder describe |
| Directory.SessionsMember | skills/jupyter-kernel-api/scripts/jupyter_kernel_exec.py:161 | the sessions kept are exactly the list's mapping entries |
| Directory.QuerySessions | skills/jupyter-kernel-api/scripts/jupyter_kernel_exec.py:156-161 | a failed request fails with its cause, a response that is not a list fails with the shape message, and a list succeeds with `Sessions` of its entries: all its mapping entries and nothing else (SessionsMember), in response order (SessionsInOrder) |
| Directory.SessionsInOrder | skills/jupyter-kernel-api/scripts/jupyter_kernel_exec.py:161 | each entry of the list contributes its session, when it is a mapping, at its own place, so the response order is kept |
| Directory.KernelId | skills/jupyter-kernel-api/scripts/jupyter_kernel_exec.py:181-187 | a session has a kernel id exactly when its `kernel` is an object whose `id` is a non-empty string |
| Directory.AllRecords | skills/jupyter-kernel-api/scripts/jupyter_kernel_exec.py:164-198 | reference definition of the records `_collect_records` returns, which CollectRecords computes and RecordsCarryTheirServer and ServerContribution describe |
| Directory.AllErrors | skills/jupyter-kernel-api/scripts/jupyter_kernel_exec.py:164-198 | reference definition of the errors `_collect_records` returns, which CollectRecords computes and FailedServerIsolated, ErrorCount and NoFailureNoErrors describe |
| Directory.CollectRecords | skills/jupyter-kernel-api/scripts/jupyter_kernel_exec.py:164-198 | the nested loop returns the records and the errors of all servers, in server order |
| Directory.KernelRecords | skills/jupyter-kernel-api/scripts/jupyter_kernel_exec.py:180-196 | the inner loop keeps, in response order, one record per session whose kernel is an object with a non-empty string id |
| Directory.RecordsCarryTheirServer | skills/jupyter-kernel-api/scripts/jupyter_kernel_exec.py:180-196 | every record has its session's non-empty kernel id and comes from a listed server that returned that session |
| Directory.ServerContribution | skills/jupyter-kernel-api/scripts/jupyter_kernel_exec.py:170-196 | each server contributes its own records and errors at its place in the order |
| Directory.FailedServerIsolated | skills/jupyter-kernel-api/scripts/jupyter_kernel_exec.py:174-178 | a server whose query fails contributes no record and exactly one error, `<base url>: <cause>` |
| Directory.ErrorCount | skills/jupyter-kernel-api/scripts/jupyter_kernel_exec.py:174-178 | there is one error per server whose query fails |
| Directory.NoFailureNoErrors | skills/jupyter-kernel-api/scripts/jupyter_kernel_exec.py:174-178 | when every query succeeds there are no errors |
| Resolver.Selects | skills/jupyter-kernel-api/scripts/jupyter_kernel_exec.py:238-260 | reference definition of which records a selector keeps, which RecordSelected computes and MatchingMember describes |
| Resolver.SelectorFor | skills/jupyter-kernel-api/scripts/jupyter_kernel_exec.py:237-264 | a non-empty kernel id wins; otherwise a match starting with `re:` gives the pattern after the prefix, any other non-empty match is a plain reference, and with neither there is no selector |
| Resolver.MatchingMember | skills/jupyter-kernel-api/scripts/jupyter_kernel_exec.py:238-260 | the matches are exactly the selected records |
| Resolver.RecordLine | skills/jupyter-kernel-api/scripts/jupyter_kernel_exec.py:213-220 | the line starts with the kernel id, the base URL and `path=`, separated by ` \| `; the body then appends the path and ` \| name=` with the name, an absent field shown as empty and a non-string one by its `str()` |
| Resolver.RecordLinesDistinct | skills/jupyter-kernel-api/scripts/jupyter_kernel_exec.py:217-220 | two records with different '\|'-free ids give different lines |
| Resolver.RecordLinesAt | skills/jupyter-kernel-api/scripts/jupyter_kernel_exec.py:273-274 | there is one line per record, in order |
| Resolver.CandidateLines | skills/jupyter-kernel-api/scripts/jupyter_kernel_exec.py:272-273 | the loop prints exactly the candidate lines of the matches, in order |
| Resolver.RecordSelected | skills/jupyter-kernel-api/scripts/jupyter_kernel_exec.py:238-259 | computes whether the selector selects the record |
| Resolver.MatchRecords | skills/jupyter-kernel-api/scripts/jupyter_kernel_exec.py:237-261 | the loop returns the selected records in order |
| Resolver.NoMatchMessage | skills/jupyter-kernel-api/scripts/jupyter_kernel_exec.py:237-261 | reference definition of the no-match message for each selector: by kernel id, by regex or by substring |
| Resolver.Decide | skills/jupyter-kernel-api/scripts/jupyter_kernel_exec.py:265-278 | reference definition of the outcome for the matches: no match, ambiguous with every candidate line, or the one match |
| Resolver.Resolve | skills/jupyter-kernel-api/scripts/jupyter_kernel_exec.py:223-278 | reference definition of `resolve_kernel_target`, which ResolveKernelTarget computes and the lemmas below describe |
| Resolver.ResolveKernelTarget | skills/jupyter-kernel-api/scripts/jupyter_kernel_exec.py:223-278 | the method arrives at the resolution the script defines for the servers and the two arguments |
| Resolver.NoSessionsIff | skills/jupyter-kernel-api/scripts/jupyter_kernel_exec.py:228-232 | the run fails for lack of sessions exactly when no record was collected, and it then reports the searched URLs and the errors |
| Resolver.ResolvedIsSoleMatch | skills/jupyter-kernel-api/scripts/jupyter_kernel_exec.py:266-278 | a resolution is the one and only selected record, and that record came from a listed server |
| Resolver.SoleMatchResolves | skills/jupyter-kernel-api/scripts/jupyter_kernel_exec.py:266-278 | when exactly one record is selected and the pattern compiles, that record is the resolution |
| Resolver.KernelIdTakesPrecedence | skills/jupyter-kernel-api/scripts/jupyter_kernel_exec.py:237-239 | with a kernel id the match argument is irrelevant, and the kernel resolved is the one asked for |
| Resolver.InvalidRegexBeforeMatching | skills/jupyter-kernel-api/scripts/jupyter_kernel_exec.py:241-247 | a pattern that does not compile fails with the compile error, whatever the pattern would find |
| Resolver.AmbiguousListsEveryCandidate | skills/jupyter-kernel-api/scripts/jupyter_kernel_exec.py:271-275 | an ambiguous result lists one record line per match, in order |
| Resolver.TwoMatchesAmbiguous | skills/jupyter-kernel-api/scripts/jupyter_kernel_exec.py:271-275 | two selected records make the result ambiguous |
| Resolver.NoMatchMeans | skills/jupyter-kernel-api/scripts/jupyter_kernel_exec.py:266-269 | with records and a usable selector, the run fails for lack of a match exactly when no record is selected |
| Execute.Kept | skills/jupyter-kernel-api/scripts/jupyter_kernel_exec.py:338-367 | reference definition of the replies that produce output, which Step, ResultOnlyDropsStreams and ItemsAreKeptReplies are proved against |
| Execute.RenderOf | skills/jupyter-kernel-api/scripts/jupyter_kernel_exec.py:341-373 | reference definition of what a reply prints in console mode, which Step is proved against |
| Execute.RunOf | skills/jupyter-kernel-api/scripts/jupyter_kernel_exec.py:328-377 | reference definition of the loop's outcome, which ReadReplies computes and the lemmas below describe |
| Execute.Examined | skills/jupyter-kernel-api/scripts/jupyter_kernel_exec.py:332-377 | the replies processed are a prefix of those received |
| Execute.ExaminedMeans | skills/jupyter-kernel-api/scripts/jupyter_kernel_exec.py:374-377 | the processed replies hold no stop, are followed by the stop when there is one, and are all the replies exactly when none stops the loop |
| Execute.ExaminedAt | skills/jupyter-kernel-api/scripts/jupyter_kernel_exec.py:374-377 | a stop-free prefix ended by a stop, or by the end, is exactly what is processed |
| Execute.Step | skills/jupyter-kernel-api/scripts/jupyter_kernel_exec.py:335-377 | one reply adds its output item in JSON mode or its printout otherwise, counts as an error exactly for an attributed error, and stops exactly for an attributed idle status |
| Execute.ReadReplies | skills/jupyter-kernel-api/scripts/jupyter_kernel_exec.py:328-377 | the loop's outputs, printouts, error flag and completion are those of the replies up to the first stop, and the replies read are those plus the stop |
| Execute.Advance | skills/jupyter-kernel-api/scripts/jupyter_kernel_exec.py:335-373 | one pass either meets the stop (idle status for the request) or adds that reply's contribution to the outcome of the replies before it |
| Execute.ForeignReplyIgnored | skills/jupyter-kernel-api/scripts/jupyter_kernel_exec.py:338-339 | a non-status reply to another request changes nothing in the outcome |
| Execute.StopIgnoresLaterReplies | skills/jupyter-kernel-api/scripts/jupyter_kernel_exec.py:374-377 | replies after an idle status for the request change nothing |
| Execute.ErrorStatusIff | skills/jupyter-kernel-api/scripts/jupyter_kernel_exec.py:363-365 | the error flag is set exactly when an error for the request arrives before any stop |
| Execute.ResultOnlyDropsStreams | skills/jupyter-kernel-api/scripts/jupyter_kernel_exec.py:341-352 | in result-only mode the outputs are those of normal mode without the stream and display items |
| Execute.ItemsAreKeptReplies | skills/jupyter-kernel-api/scripts/jupyter_kernel_exec.py:341-367 | there is one output item per kept reply, in order, carrying that reply's type and content |
| Execute.ResultExample | skills/jupyter-kernel-api/scripts/jupyter_kernel_exec.py:350-360 | busy, then a plain-text result `2`, then idle give one output item in JSON mode and print `2` otherwise, with no error |
| Execute.ExecuteRequest | skills/jupyter-kernel-api/scripts/jupyter_kernel_exec.py:302-325 | the request carries the given ids, date and code, user `api`, type `execute_request`, protocol `5.3` on the shell channel, and the flags silent off, store history on, stdin off, stop on error on |
| Execute.ExecuteCode | skills/jupyter-kernel-api/scripts/jupyter_kernel_exec.py:298-391 | connects to the built websocket URL, sends the request, prints what the reply loop prints, and in JSON mode summarises with status `error` exactly when an error was seen |
| Cli.ServersToSearch | skills/jupyter-kernel-api/scripts/jupyter_kernel_exec.py:441-458 | reference definition of the servers `main` searches: the given base URL, or the discovered servers, or the two failures |
| Cli.PlanTarget | skills/jupyter-kernel-api/scripts/jupyter_kernel_exec.py:441-476 | reference definition of `main`'s decisions up to the code source, which SearchHasOneSelector, PlanOrder and FastPathAgreesWithResolution describe |
| Cli.SearchHasOneSelector | skills/jupyter-kernel-api/scripts/jupyter_kernel_exec.py:441-476 | a search has servers and exactly one selector, so the resolution never reports a missing selector |
| Cli.PlanOrder | skills/jupyter-kernel-api/scripts/jupyter_kernel_exec.py:441-472 | the base-URL checks precede the selector checks, and the search is skipped exactly for a kernel id given with a base URL and no match |
| Cli.FastPathAgreesWithResolution | skills/jupyter-kernel-api/scripts/jupyter_kernel_exec.py:469-476 | the skipped search, had it resolved, would have given the same URL, token and kernel id |
| Cli.ChooseCode | skills/jupyter-kernel-api/scripts/jupyter_kernel_exec.py:478-492 | exactly one code source must be given; a file wins over stdin, which wins over inline code, and inline code is unescaped |
| Cli.UnescapeNewlines | skills/jupyter-kernel-api/scripts/jupyter_kernel_exec.py:492 | reference definition of `replace("\\n", "\n")` on the inline code, which the two lemmas below describe |
| Cli.UnescapeLeavesNoEscape | skills/jupyter-kernel-api/scripts/jupyter_kernel_exec.py:492 | no backslash-n pair is left after the conversion |
| Cli.UnescapeEscapeRoundTrip | skills/jupyter-kernel-api/scripts/jupyter_kernel_exec.py:492 | for text without backslashes, unescaping undoes escaping every newline |

## Left out

- Process and network I/O are not modelled. This covers the `jupyter server list` subprocess, `_parse_server_list`, `_http_get_json`, the websocket connection, its send and its timeout, and the missing-dependency exit. The model starts from their data: the listing as `ServerItem`s, HTTP answers through `Http.get`, and the received messages as a sequence of `Reply`.
- JSON parsing and printing are not modelled. `json.dumps`, `print` and `_print_search_context` are replaced by data: printouts are `Render` values, and failures carry what would be printed.
- argparse is not modelled, and neither are the reading of `--code-file` and of stdin. `ChooseCode` only names the chosen source.
- `Http.get` is a function, so two servers with the same sessions URL get the same answer. The source makes one independent GET per server; no proved property depends on the answers being equal.
- The fresh `uuid4` ids and the current date are not generated. `ExecuteCode` takes them as parameters.
- Python's `re` on user patterns is abstract: `Regex.compileError` and `Regex.search` are given, not defined.
- `urlencode`'s escaping of the token is abstract: it is the function `quote`.
- `urlparse` is not modelled. `BuildWsUrl` takes the scheme, netloc and path already split, with the scheme in lower case.
- Urls.Unparse: follows the `urlunsplit` of older CPython releases (3.11 and before), which puts `//` after a scheme that uses a network location even when the netloc is empty. It does not model that version's case of an empty netloc with a `//`-led path, which it leaves without the extra `//`. Newer releases put `//` there only for a non-empty netloc or a path led by `/`, so they differ from the model on an empty netloc with a path not led by `/`: base URL `localhost:8888` splits into scheme `localhost`, netloc `""` and path `8888`, and gives `ws:8888/api/kernels/<id>/channels` there, where the model gives `ws:///8888/api/kernels/<id>/channels`.
- Execute.ExecuteCode: does not model the read timeout. A reply sequence that ends without an idle status stands for it; the source then exits with an exception and prints no summary, and the model gives `completed == false` and no summary.
- Reply content fields are typed. `text` is a string and `traceback` a list of strings; other JSON shapes of these fields are not modelled. Of a result's `data`, only `text/plain` is kept, so `PrintPayload` carries the reply's content, from which the source prints `json.dumps` of `data`.
- A non-string `path` or `name` of a session is only its `str()` rendering, `shown`, which `_record_line` prints.
- SessionNames.NotebookLikeMatch: `str.lower()` is modelled on ASCII letters only, through `Text.Lower`.
- Text.Lower: `str.lower()` is modelled on ASCII letters only; Text.LowerAt states the length-keeping, per-character lowering of that model, which Python does not keep for every non-ASCII character.
- SessionNames.UuidAt: case folding covers ASCII letters and the two characters that fold to `i`, U+0130 and U+0131. No other Unicode folding that `re.IGNORECASE` may perform is modelled.
- SessionNames.JvscAt: `$` is read as the end of the string. The case where `$` matches just before a final newline is not modelled.
- SessionNames.UuidAt: `$` in the UUID pattern's lookahead is read as the end of the string. Python's `$` also matches just before a final newline, so a value such as `nb-<uuid>.ipynb` followed by a newline loses its UUID in the source but not in the model.
- SessionNames.StripUuid: does not remove a UUID that is followed by `.ipynb` and a final newline (see SessionNames.UuidAt).
- SessionNames.StripUuidMatch: states the UUID stage through UuidAt, so it carries the same end-of-string reading.
- SessionNames.NormalizeSessionValue: inherits the end-of-string reading of `$` from JvscAt and UuidAt; a value ending in a newline is not normalised as the source does.
- SessionNames.NormalizeSessionValueStages: states the stages through JvscAt and UuidAt, so it carries the same end-of-string reading.
- SessionNames.NormalizeWithoutSuffix: "neither suffix" is judged by JvscAt and UuidAt, so a value whose suffix is followed by a final newline counts as having none, where the source removes the suffix.
- SessionNames.NormalizeDropsUuid: there is no lemma on a concrete UUID string; the property is stated for every UUID-shaped string.
- The order in which a Python set is iterated is not modelled. The two matchers pick the set's elements in any order, and their results do not depend on that order.

## Order of failures

- `resolve_kernel_target` first collects the session records, and only
  then compiles the `re:` pattern. So the failure "no sessions on the
  selected servers" is reported before an invalid pattern and before a
  missing selector. The model follows this order: see `Resolver.Resolve`
  and `Resolver.NoSessionsIff`.

=== FILE: cli.dfy ===
/** The decisions of `main` that are not I/O: which servers to search,
    whether the kernel id can be trusted as given, which code source is
    read, and how the inline `--code` argument is unescaped. */
module Cli {
  import opened Seqs
  import opened Text
  import opened Urls
  import opened SessionNames
  import opened Directory
  import opened Resolver

  /** What `main` does before executing: use the given target directly,
      resolve it among servers, or stop with a message. */
  datatype Plan = Direct(baseUrl: string, token: Option<string>, kernelId: string) | Search(servers: seq<Server>) | Refuse(message: string)

  const NoBaseUrl: string := "Missing --base-url. Enable --auto-discover or provide --base-url."
  const NoServers: string := "No running Jupyter servers found via `jupyter server list`. Provide --base-url manually."
  const BothSelectors: string := "Provide only one of --kernel-id or --kernel-match."
  const NoSelectorGiven: string := "Missing --kernel-id (or use --kernel-match)."

  /** The servers to search: the one given by `--base-url`, or the ones the
      listing describes when discovery is on (`listing` is what
      `jupyter server list --jsonlist` yielded, empty when it failed). */
  function ServersToSearch(baseUrlArg: Option<string>, autoDiscover: bool, tokenArg: Option<string>, listing: seq<ServerItem>): Result<seq<Server>>
  {
    if Truthy(baseUrlArg) then Success([Server(NormalizeBaseUrl(baseUrlArg.value), tokenArg, None)])
    else if !autoDiscover then Failure(NoBaseUrl)
    else
      var servers := Discovered(listing, tokenArg);
      if servers == [] then Failure(NoServers) else Success(servers)
  }

  /** `main` up to the code source: the servers, then the selector checks,
      then the fast path for a kernel id on a given base URL. */
  function PlanTarget(baseUrlArg: Option<string>, autoDiscover: bool, tokenArg: Option<string>, listing: seq<ServerItem>,
                      kernelId: Option<string>, kernelMatch: Option<string>): Plan
  {
    match ServersToSearch(baseUrlArg, autoDiscover, tokenArg, listing)
    case Failure(message) => Refuse(message)
    case Success(servers) =>
      if Truthy(kernelId) && Truthy(kernelMatch) then Refuse(BothSelectors)
      else if !Truthy(kernelId) && !Truthy(kernelMatch) then Refuse(NoSelectorGiven)
      else if Truthy(kernelId) && Truthy(baseUrlArg) then Direct(servers[0].baseUrl, servers[0].token, kernelId.value)
      else Search(servers)
  }

  /** A search always has servers and exactly one selector, so the
      resolution never reports a missing selector. */
  lemma SearchHasOneSelector(baseUrlArg: Option<string>, autoDiscover: bool, tokenArg: Option<string>, listing: seq<ServerItem>,
                             kernelId: Option<string>, kernelMatch: Option<string>, http: Http, regex: Regex)
    requires PlanTarget(baseUrlArg, autoDiscover, tokenArg, listing, kernelId, kernelMatch).Search?
    ensures var servers := PlanTarget(baseUrlArg, autoDiscover, tokenArg, listing, kernelId, kernelMatch).servers;
      servers != [] && (Truthy(kernelId) != Truthy(kernelMatch)) &&
      Resolve(http, regex, servers, kernelId, kernelMatch) != Missing
  {
  }

  /** The base-URL checks come first, then the selector checks; the fast
      path is taken exactly for a kernel id on a given base URL. */
  lemma PlanOrder(baseUrlArg: Option<string>, autoDiscover: bool, tokenArg: Option<string>, listing: seq<ServerItem>,
                  kernelId: Option<string>, kernelMatch: Option<string>)
    ensures var plan := PlanTarget(baseUrlArg, autoDiscover, tokenArg, listing, kernelId, kernelMatch);
      (!Truthy(baseUrlArg) && !autoDiscover ==> plan == Refuse(NoBaseUrl)) &&
      (!Truthy(baseUrlArg) && autoDiscover && Discovered(listing, tokenArg) == [] ==> plan == Refuse(NoServers)) &&
      (Truthy(baseUrlArg) && Truthy(kernelId) && Truthy(kernelMatch) ==> plan == Refuse(BothSelectors)) &&
      (plan.Direct? <==> Truthy(baseUrlArg) && Truthy(kernelId) && !Truthy(kernelMatch))
  {
  }

  /** The fast path agrees with the resolution it skips: when searching the
      given server would resolve the kernel id, it resolves to the same URL,
      token and id. The fast path only omits the check that the kernel runs. */
  lemma FastPathAgreesWithResolution(baseUrlArg: Option<string>, autoDiscover: bool, tokenArg: Option<string>, listing: seq<ServerItem>,
                                     kernelId: Option<string>, kernelMatch: Option<string>, http: Http, regex: Regex)
    requires PlanTarget(baseUrlArg, autoDiscover, tokenArg, listing, kernelId, kernelMatch).Direct?
    ensures var plan := PlanTarget(baseUrlArg, autoDiscover, tokenArg, listing, kernelId, kernelMatch);
      var servers := [Server(plan.baseUrl, plan.token, None)];
      var res := Resolve(http, regex, servers, kernelId, kernelMatch);
      plan.baseUrl == NormalizeBaseUrl(baseUrlArg.value) && plan.token == tokenArg && plan.kernelId == kernelId.value &&
      (res.Resolved? ==> res == Resolved(plan.baseUrl, plan.token, plan.kernelId))
  {
    var plan := PlanTarget(baseUrlArg, autoDiscover, tokenArg, listing, kernelId, kernelMatch);
    var servers := [Server(plan.baseUrl, plan.token, None)];
    var res := Resolve(http, regex, servers, kernelId, kernelMatch);
    if res.Resolved? {
      ResolvedIsSoleMatch(http, regex, servers, kernelId, kernelMatch);
      KernelIdTakesPrecedence(http, regex, servers, kernelId, kernelMatch, kernelMatch);
    }
  }

  const TooManyCodeSources: string := "Provide only one of --code, --code-file, or --code-stdin."
  const NoCodeSource: string := "Missing code. Use --code, --code-file, or --code-stdin."

  /** Where the code to execute comes from. */
  datatype CodeSource = FromFile(path: string) | FromStdin | Inline(code: string)

  /** How many of the three code options were given (Python truthiness). */
  function CodeSourceCount(code: Option<string>, codeFile: Option<string>, codeStdin: bool): nat
  {
    (if Truthy(code) then 1 else 0) + (if Truthy(codeFile) then 1 else 0) + (if codeStdin then 1 else 0)
  }

  /** The code source `main` reads: refused unless exactly one option is
      given; a file wins over stdin, which wins over inline code. */
  function ChooseCode(code: Option<string>, codeFile: Option<string>, codeStdin: bool): (r: Result<CodeSource>)
    ensures r.Success? <==> CodeSourceCount(code, codeFile, codeStdin) == 1
    ensures r == Failure(TooManyCodeSources) <==> CodeSourceCount(code, codeFile, codeStdin) > 1
    ensures r == Failure(NoCodeSource) <==> CodeSourceCount(code, codeFile, codeStdin) == 0
    ensures r.Success? && r.value.FromFile? ==> codeFile == Some(r.value.path)
    ensures r.Success? && r.value.FromStdin? ==> codeStdin
    ensures r.Success? && r.value.Inline? ==> code.Some? && r.value.code == UnescapeNewlines(code.value)
  {
    var n := CodeSourceCount(code, codeFile, codeStdin);
    if n > 1 then Failure(TooManyCodeSources)
    else if n == 0 then Failure(NoCodeSource)
    else if Truthy(codeFile) then Success(FromFile(codeFile.value))
    else if codeStdin then Success(FromStdin)
    else Success(Inline(UnescapeNewlines(code.value)))
  }

  /** `code.replace("\\n", "\n")`: every backslash-n pair, scanned from the
      left without overlap, becomes a newline. */
  function UnescapeNewlines(code: string): string
    decreases |code|
  {
    if |code| >= 2 && code[0] == '\\' && code[1] == 'n' then "\n" + UnescapeNewlines(code[2..])
    else if code == [] then []
    else [code[0]] + UnescapeNewlines(code[1..])
  }

  /** s holds a backslash directly followed by 'n'. */
  predicate HasEscapedNewline(s: string)
  {
    exists i :: 0 <= i < |s| - 1 && s[i] == '\\' && s[i + 1] == 'n'
  }

  /** The unescaped text starts with 'n' only where the code does. */
  lemma UnescapeHead(code: string)
    requires UnescapeNewlines(code) != []
    ensures code != [] && (UnescapeNewlines(code)[0] == 'n' ==> code[0] == 'n')
  {
  }

  /** No backslash-n pair is left after the conversion. */
  lemma {:induction false} UnescapeLeavesNoEscape(code: string)
    ensures !HasEscapedNewline(UnescapeNewlines(code))
    decreases |code|
  {
    var u := UnescapeNewlines(code);
    if |code| >= 2 && code[0] == '\\' && code[1] == 'n' {
      var rest := UnescapeNewlines(code[2..]);
      UnescapeLeavesNoEscape(code[2..]);
      forall i | 0 <= i < |u| - 1 ensures !(u[i] == '\\' && u[i + 1] == 'n') {
        if i > 0 {
          assert u[i] == rest[i - 1] && u[i + 1] == rest[i];
        }
      }
    } else if code != [] {
      var rest := UnescapeNewlines(code[1..]);
      UnescapeLeavesNoEscape(code[1..]);
      forall i | 0 <= i < |u| - 1 ensures !(u[i] == '\\' && u[i + 1] == 'n') {
        if i > 0 {
          assert u[i] == rest[i - 1] && u[i + 1] == rest[i];
        } else if u[0] == '\\' {
          UnescapeHead(code[1..]);
          assert u[1] == rest[0];
        }
      }
    }
  }

  /** Writing each newline as backslash-n, the inverse for backslash-free text. */
  function EscapeNewlines(text: string): (r: string)
    ensures '\n' !in r
    ensures '\n' !in text ==> r == text
  {
    if text == [] then []
    else (if text[0] == '\n' then "\\n" else [text[0]]) + EscapeNewlines(text[1..])
  }

  /** Unescaping undoes escaping for text without backslashes. */
  lemma {:induction false} UnescapeEscapeRoundTrip(text: string)
    requires '\\' !in text
    ensures UnescapeNewlines(EscapeNewlines(text)) == text
    decreases |text|
  {
    if text != [] {
      var rest := EscapeNewlines(text[1..]);
      assert '\\' !in text[1..];
      UnescapeEscapeRoundTrip(text[1..]);
      if text[0] == '\n' {
        assert EscapeNewlines(text) == "\\n" + rest;
        assert ("\\n" + rest)[2..] == rest;
      } else {
        var e := [text[0]] + rest;
        assert EscapeNewlines(text) == e;
        assert e[1..] == rest;
      }
      assert text == [text[0]] + text[1..];
    }
  }
}

=== FILE: directory.dfy ===
/** The session directory: the servers found by `jupyter server list`, and
    the kernel records gathered from every server's `/api/sessions`. */
module Directory {
  import opened Seqs
  import opened Text
  import opened Urls
  import opened SessionNames

  /** A Jupyter server to search: its normalised base URL, its token, and
      its root directory when the listing gave one. */
  datatype Server = Server(baseUrl: string, token: Option<string>, rootDir: Option<string>)

  /** One object of the `jupyter server list --jsonlist` output; only these
      three keys are read. */
  datatype ServerItem = ServerItem(url: Field, token: Field, rootDir: Field)

  /** The server an item describes, or None when it has no non-empty string
      `url`. A token that is not a non-empty string gives way to the fallback
      (the `--token` argument); a root directory that is not a string is dropped. */
  function ServerFromItem(item: ServerItem, tokenFallback: Option<string>): (r: Option<Server>)
    ensures r.Some? <==> NonEmptyStr(item.url)
    ensures r.Some? ==> r.value.baseUrl == NormalizeBaseUrl(item.url.s)
    ensures r.Some? ==> r.value.token == (if NonEmptyStr(item.token) then Some(item.token.s) else tokenFallback)
    ensures r.Some? ==> r.value.rootDir == (if item.rootDir.Str? then Some(item.rootDir.s) else None)
  {
    if !NonEmptyStr(item.url) then None
    else
      var token := if NonEmptyStr(item.token) then Some(item.token.s) else tokenFallback;
      var rootDir := if item.rootDir.Str? then Some(item.rootDir.s) else None;
      Some(Server(NormalizeBaseUrl(item.url.s), token, rootDir))
  }

  /** The servers of a listing, in listing order. */
  function Discovered(items: seq<ServerItem>, tokenFallback: Option<string>): seq<Server>
  {
    FlatMap((item: ServerItem) => ServerOf(item, tokenFallback), items)
  }

  /** Zero or one server for one item. */
  function ServerOf(item: ServerItem, tokenFallback: Option<string>): seq<Server>
  {
    match ServerFromItem(item, tokenFallback)
    case None => []
    case Some(server) => [server]
  }

  /** The mapping loop of `discover_servers`. */
  method ServersFromList(items: seq<ServerItem>, tokenFallback: Option<string>) returns (servers: seq<Server>)
    ensures servers == Discovered(items, tokenFallback)
  {
    servers := [];
    for i := 0 to |items|
      invariant servers == Discovered(items[..i], tokenFallback)
    {
      var item := items[i];
      assert items[..i + 1][..i] == items[..i];
      if !NonEmptyStr(item.url) {
        continue;
      }
      var token := if NonEmptyStr(item.token) then Some(item.token.s) else tokenFallback;
      var rootDir := if item.rootDir.Str? then Some(item.rootDir.s) else None;
      servers := servers + [Server(NormalizeBaseUrl(item.url.s), token, rootDir)];
    }
    assert items[..|items|] == items;
  }

  /** A server is discovered exactly for each item with a usable URL, and it
      carries that item's normalised URL and its token or the fallback. */
  lemma DiscoveredMeans(items: seq<ServerItem>, tokenFallback: Option<string>, server: Server)
    ensures server in Discovered(items, tokenFallback) <==>
      exists i :: 0 <= i < |items| && ServerFromItem(items[i], tokenFallback) == Some(server)
  {
    var f := (item: ServerItem) => ServerOf(item, tokenFallback);
    FlatMapMember(f, items, server);
  }

  /** One server per usable item: the listing is neither reordered nor merged. */
  lemma {:induction false} DiscoveredCount(items: seq<ServerItem>, tokenFallback: Option<string>)
    ensures |Discovered(items, tokenFallback)| == |Filter((item: ServerItem) => NonEmptyStr(item.url), items)|
    decreases |items|
  {
    if items != [] {
      DiscoveredCount(items[..|items| - 1], tokenFallback);
    }
  }

  /** No discovered base URL ends in '/'. */
  lemma DiscoveredUrlsNormalized(items: seq<ServerItem>, tokenFallback: Option<string>, server: Server)
    requires server in Discovered(items, tokenFallback)
    ensures server.baseUrl == [] || server.baseUrl[|server.baseUrl| - 1] != '/'
  {
    DiscoveredMeans(items, tokenFallback, server);
  }

  /** One element of a JSON list: an object (a session) or any other value. */
  datatype Entry = Mapping(session: Session) | NotMapping

  /** What fetching and decoding a URL produced: a JSON list, some other JSON
      value, or an exception with its text. */
  datatype Fetch = Fetched(entries: seq<Entry>) | NotAList | Raised(cause: string)

  /** The HTTP side: `get` stands for the JSON GET of a URL, and `quote` for
      urlencode's escaping of a query value. */
  datatype Http = Http(get: string -> Fetch, quote: string -> string)

  /** The objects of a JSON list, in order. */
  function Sessions(entries: seq<Entry>): seq<Session>
  {
    FlatMap((e: Entry) => if e.Mapping? then [e.session] else [], entries)
  }

  lemma SessionsMember(entries: seq<Entry>, session: Session)
    ensures session in Sessions(entries) <==> Mapping(session) in entries
  {
    var f := (e: Entry) => if e.Mapping? then [e.session] else [];
    FlatMapMember(f, entries, session);
    if Mapping(session) in entries {
      var i :| 0 <= i < |entries| && entries[i] == Mapping(session);
      assert session in f(entries[i]);
    }
  }

  /** Each entry of the list contributes its session, if it is an object,
      at its own place: the order of the response is kept. */
  lemma SessionsInOrder(xs: seq<Entry>, e: Entry, ys: seq<Entry>)
    ensures Sessions(xs + [e] + ys) == Sessions(xs) + (if e.Mapping? then [e.session] else []) + Sessions(ys)
  {
    FlatMapMiddle((e: Entry) => if e.Mapping? then [e.session] else [], xs, e, ys);
  }

  /** The sessions URL of a server. */
  function SessionsUrl(http: Http, baseUrl: string, token: Option<string>): string
  {
    AddToken(baseUrl + "/api/sessions", token, http.quote)
  }

  const ShapeError: string := "Unexpected /api/sessions response shape."

  /** `_query_sessions`: a failed GET passes its error on, a response that is
      not a list is an error, and a list yields its objects. */
  function QuerySessions(http: Http, baseUrl: string, token: Option<string>): (r: Result<seq<Session>>)
    ensures http.get(SessionsUrl(http, baseUrl, token)).Raised? ==> r == Failure(http.get(SessionsUrl(http, baseUrl, token)).cause)
    ensures http.get(SessionsUrl(http, baseUrl, token)).NotAList? ==> r == Failure(ShapeError)
    ensures r.Success? <==> http.get(SessionsUrl(http, baseUrl, token)).Fetched?
    ensures r.Success? ==> forall s :: s in r.value ==> Mapping(s) in http.get(SessionsUrl(http, baseUrl, token)).entries
    ensures http.get(SessionsUrl(http, baseUrl, token)).Fetched? ==> r == Success(Sessions(http.get(SessionsUrl(http, baseUrl, token)).entries))
  {
    match http.get(SessionsUrl(http, baseUrl, token))
    case Raised(cause) => Failure(cause)
    case NotAList => Failure(ShapeError)
    case Fetched(entries) =>
      forall s | s in Sessions(entries) ensures Mapping(s) in entries {
        SessionsMember(entries, s);
      }
      Success(Sessions(entries))
  }

  /** A kernel record: a session with a usable kernel id, and the server it came from. */
  datatype Record = Record(kernelId: string, baseUrl: string, token: Option<string>, session: Session)

  /** The kernel id of a session: its `kernel` must be an object whose `id`
      is a non-empty string. */
  function KernelId(session: Session): (r: Option<string>)
    ensures r.Some? ==> r.value != ""
    ensures r.Some? <==> session.kernel.KernelObject? && NonEmptyStr(session.kernel.id)
  {
    match session.kernel
    case KernelObject(Str(id)) => if id != "" then Some(id) else None
    case _ => None
  }

  /** The record of one session of a server, if it has a kernel id. */
  function RecordOf(server: Server, session: Session): seq<Record>
  {
    match KernelId(session)
    case None => []
    case Some(id) => [Record(id, server.baseUrl, server.token, session)]
  }

  /** The records of a server's sessions, in response order. */
  function SessionRecords(server: Server, sessions: seq<Session>): seq<Record>
  {
    FlatMap((s: Session) => RecordOf(server, s), sessions)
  }

  /** What one server contributes: its records, or nothing when it fails. */
  function ServerRecords(http: Http, server: Server): seq<Record>
  {
    match QuerySessions(http, server.baseUrl, server.token)
    case Failure(_) => []
    case Success(sessions) => SessionRecords(server, sessions)
  }

  /** What one server contributes to the errors: `<base_url>: <cause>` when it fails. */
  function ServerErrors(http: Http, server: Server): seq<string>
  {
    match QuerySessions(http, server.baseUrl, server.token)
    case Failure(cause) => [server.baseUrl + ": " + cause]
    case Success(_) => []
  }

  function AllRecords(http: Http, servers: seq<Server>): seq<Record>
  {
    FlatMap((s: Server) => ServerRecords(http, s), servers)
  }

  function AllErrors(http: Http, servers: seq<Server>): seq<string>
  {
    FlatMap((s: Server) => ServerErrors(http, s), servers)
  }

  /** `_collect_records`: query the servers in order; a failing server adds
      one error and the loop goes on with the next. */
  method CollectRecords(http: Http, servers: seq<Server>) returns (records: seq<Record>, errors: seq<string>)
    ensures records == AllRecords(http, servers)
    ensures errors == AllErrors(http, servers)
  {
    records, errors := [], [];
    for i := 0 to |servers|
      invariant records == AllRecords(http, servers[..i])
      invariant errors == AllErrors(http, servers[..i])
    {
      var server := servers[i];
      assert servers[..i + 1][..i] == servers[..i];
      var outcome := QuerySessions(http, server.baseUrl, server.token);
      if outcome.Failure? {
        errors := errors + [server.baseUrl + ": " + outcome.error];
        continue;
      }
      var found := KernelRecords(server, outcome.value);
      records := records + found;
    }
    assert servers[..|servers|] == servers;
  }

  /** The inner loop of `_collect_records`: one record per session of the
      answer whose kernel is an object with a non-empty string id. */
  method KernelRecords(server: Server, sessions: seq<Session>) returns (records: seq<Record>)
    ensures records == SessionRecords(server, sessions)
  {
    records := [];
    for j := 0 to |sessions|
      invariant records == SessionRecords(server, sessions[..j])
    {
      var session := sessions[j];
      assert sessions[..j + 1][..j] == sessions[..j];
      if !session.kernel.KernelObject? {
        continue;
      }
      var kernelId := session.kernel.id;
      if !kernelId.Str? || kernelId.s == "" {
        continue;
      }
      records := records + [Record(kernelId.s, server.baseUrl, server.token, session)];
    }
    assert sessions[..|sessions|] == sessions;
  }

  /** r carries the URL and token of server, which answered with r's session. */
  predicate CameFrom(http: Http, server: Server, r: Record)
  {
    r.baseUrl == server.baseUrl && r.token == server.token &&
    var answer := QuerySessions(http, server.baseUrl, server.token);
    answer.Success? && r.session in answer.value
  }

  /** Every record has a non-empty kernel id and carries the URL and token
      of a server that answered with that record's session. */
  lemma RecordsCarryTheirServer(http: Http, servers: seq<Server>, r: Record)
    requires r in AllRecords(http, servers)
    ensures r.kernelId != "" && KernelId(r.session) == Some(r.kernelId)
    ensures exists i :: 0 <= i < |servers| && CameFrom(http, servers[i], r)
  {
    var f := (s: Server) => ServerRecords(http, s);
    FlatMapMember(f, servers, r);
    var i :| 0 <= i < |servers| && r in f(servers[i]);
    var server := servers[i];
    var sessions := QuerySessions(http, server.baseUrl, server.token).value;
    var g := (s: Session) => RecordOf(server, s);
    FlatMapMember(g, sessions, r);
    var j :| 0 <= j < |sessions| && r in g(sessions[j]);
  }

  /** A server's records and errors sit between those of the servers before
      and after it: records keep server order, then response order, and one
      server's failure leaves the others' contributions as they are. */
  lemma ServerContribution(http: Http, servers: seq<Server>, k: nat)
    requires k < |servers|
    ensures AllRecords(http, servers) == AllRecords(http, servers[..k]) + ServerRecords(http, servers[k]) + AllRecords(http, servers[k + 1..])
    ensures AllErrors(http, servers) == AllErrors(http, servers[..k]) + ServerErrors(http, servers[k]) + AllErrors(http, servers[k + 1..])
  {
    FlatMapSplit((s: Server) => ServerRecords(http, s), servers, k);
    FlatMapSplit((s: Server) => ServerErrors(http, s), servers, k);
  }

  /** A failing server contributes exactly one error, `<base_url>: <cause>`, and no record. */
  lemma FailedServerIsolated(http: Http, servers: seq<Server>, k: nat)
    requires k < |servers|
    requires QuerySessions(http, servers[k].baseUrl, servers[k].token).Failure?
    ensures AllRecords(http, servers) == AllRecords(http, servers[..k]) + AllRecords(http, servers[k + 1..])
    ensures AllErrors(http, servers) == AllErrors(http, servers[..k]) +
      [servers[k].baseUrl + ": " + QuerySessions(http, servers[k].baseUrl, servers[k].token).error] +
      AllErrors(http, servers[k + 1..])
  {
    ServerContribution(http, servers, k);
  }

  /** There is one error per failing server. */
  lemma {:induction false} ErrorCount(http: Http, servers: seq<Server>)
    ensures |AllErrors(http, servers)| == |Filter((s: Server) => QuerySessions(http, s.baseUrl, s.token).Failure?, servers)|
    decreases |servers|
  {
    if servers != [] {
      ErrorCount(http, servers[..|servers| - 1]);
    }
  }

  /** Servers that all answer contribute no error. */
  lemma {:induction false} NoFailureNoErrors(http: Http, servers: seq<Server>)
    requires forall s :: s in servers ==> QuerySessions(http, s.baseUrl, s.token).Success?
    ensures AllErrors(http, servers) == []
    decreases |servers|
  {
    if servers != [] {
      NoFailureNoErrors(http, servers[..|servers| - 1]);
    }
  }
}

=== FILE: execute.dfy ===
/** `execute_code`: the execute request sent over the kernel's channels
    websocket, and the loop that reads the replies (the "Execute" and
    "Kernel status" messages of version 5.3 of the Jupyter messaging
    protocol) until the kernel reports that it is idle again. */
module Execute {
  import opened Seqs
  import opened Text
  import opened Urls

  /** The parts of a reply's `content` that the loop reads: `text` (of a
      stream), `data["text/plain"]` (of a result), `traceback` (of an
      error) and `execution_state` (of a status). */
  datatype Content = Content(text: string, plainText: Option<string>, traceback: seq<string>, executionState: Option<string>)

  /** A decoded reply: its `msg_type`, its `parent_header.msg_id`, and its content. */
  datatype Reply = Reply(msgType: Option<string>, parentId: Option<string>, content: Content)

  /** One entry of the JSON summary's `outputs`. */
  datatype OutputItem = OutputItem(kind: string, content: Content)

  /** What console mode prints for one reply: text without a newline, a
      line, the JSON dump of a result's `data` (the payload is the content
      that `data` is taken from), or Python's `str()` of an error's content. */
  datatype Render = Write(text: string) | PrintLine(line: string) | PrintPayload(payload: Content) | PrintContent(content: Content)

  const Stream: string := "stream"
  const ExecuteResult: string := "execute_result"
  const DisplayData: string := "display_data"
  const Error: string := "error"
  const Status: string := "status"

  /** The reply answers the request. */
  predicate Attributed(msgId: string, r: Reply)
  {
    r.parentId == Some(msgId)
  }

  /** The first reply of this kind ends the loop: an `idle` status answering the request. */
  predicate IsStop(msgId: string, r: Reply)
  {
    r.msgType == Some(Status) && r.content.executionState == Some("idle") && Attributed(msgId, r)
  }

  /** An error answering the request. */
  predicate IsError(msgId: string, r: Reply)
  {
    r.msgType == Some(Error) && Attributed(msgId, r)
  }

  /** The reply produces output: it answers the request and is a stream, a
      result, display data or an error, where result-only mode drops
      streams and display data. */
  predicate Kept(msgId: string, resultOnly: bool, r: Reply)
  {
    Attributed(msgId, r) &&
    (r.msgType == Some(ExecuteResult) || r.msgType == Some(Error) ||
     (!resultOnly && (r.msgType == Some(Stream) || r.msgType == Some(DisplayData))))
  }

  /** The output item a reply adds in JSON mode. */
  function ItemOf(msgId: string, resultOnly: bool, r: Reply): seq<OutputItem>
  {
    if Kept(msgId, resultOnly, r) then [ItemFor(r)] else []
  }

  /** The item of a reply: its type and its content. */
  function ItemFor(r: Reply): OutputItem
  {
    OutputItem(if r.msgType.Some? then r.msgType.value else "", r.content)
  }

  /** What a reply prints in console mode. */
  function RenderOf(msgId: string, resultOnly: bool, r: Reply): seq<Render>
  {
    if !Kept(msgId, resultOnly, r) then []
    else if r.msgType == Some(Stream) then
      if r.content.text != "" then [Write(r.content.text)] else []
    else if r.msgType == Some(Error) then
      if r.content.traceback != [] then [PrintLine(Join(r.content.traceback, "\n"))] else [PrintContent(r.content)]
    else if Truthy(r.content.plainText) then [PrintLine(r.content.plainText.value)]
    else [PrintPayload(r.content)]
  }

  function Items(msgId: string, resultOnly: bool, replies: seq<Reply>): seq<OutputItem>
  {
    FlatMap((r: Reply) => ItemOf(msgId, resultOnly, r), replies)
  }

  function Renders(msgId: string, resultOnly: bool, replies: seq<Reply>): seq<Render>
  {
    FlatMap((r: Reply) => RenderOf(msgId, resultOnly, r), replies)
  }

  predicate ErrorSeen(msgId: string, replies: seq<Reply>)
  {
    exists k :: 0 <= k < |replies| && IsError(msgId, replies[k])
  }

  /** The replies the loop processes: those before the first stop. */
  function Examined(msgId: string, replies: seq<Reply>): (e: seq<Reply>)
    ensures |e| <= |replies| && replies[..|e|] == e
  {
    if replies == [] || IsStop(msgId, replies[0]) then []
    else [replies[0]] + Examined(msgId, replies[1..])
  }

  /** Some reply stops the loop. */
  predicate Completes(msgId: string, replies: seq<Reply>)
  {
    exists k :: 0 <= k < |replies| && IsStop(msgId, replies[k])
  }

  /** The processed replies run up to the first stop, or through all replies. */
  lemma {:induction false} ExaminedMeans(msgId: string, replies: seq<Reply>)
    ensures var e := Examined(msgId, replies);
      (forall k :: 0 <= k < |e| ==> !IsStop(msgId, replies[k])) &&
      (|e| < |replies| ==> IsStop(msgId, replies[|e|])) &&
      (|e| == |replies| <==> !Completes(msgId, replies))
    decreases |replies|
  {
    if replies != [] && !IsStop(msgId, replies[0]) {
      var rest := replies[1..];
      ExaminedMeans(msgId, rest);
      forall k | 0 <= k < |rest| ensures rest[k] == replies[k + 1] { }
      if Completes(msgId, replies) {
        var k :| 0 <= k < |replies| && IsStop(msgId, replies[k]);
        assert IsStop(msgId, rest[k - 1]);
      }
    }
  }

  /** A prefix without a stop, ended by a stop or by the end, is what is processed. */
  lemma {:induction false} ExaminedAt(msgId: string, replies: seq<Reply>, i: nat)
    requires i <= |replies|
    requires forall k :: 0 <= k < i ==> !IsStop(msgId, replies[k])
    requires i == |replies| || IsStop(msgId, replies[i])
    ensures Examined(msgId, replies) == replies[..i]
    decreases i
  {
    if i > 0 {
      ExaminedAt(msgId, replies[1..], i - 1);
      assert replies[..i] == [replies[0]] + replies[1..][..i - 1];
    }
  }

  /** The outcome of reading the replies. */
  datatype Run = Run(outputs: seq<OutputItem>, rendered: seq<Render>, hadError: bool, completed: bool)

  /** The outcome the loop arrives at on a reply stream. */
  function RunOf(msgId: string, jsonOutput: bool, resultOnly: bool, replies: seq<Reply>): Run
  {
    var e := Examined(msgId, replies);
    Run(if jsonOutput then Items(msgId, resultOnly, e) else [],
        if jsonOutput then [] else Renders(msgId, resultOnly, e),
        ErrorSeen(msgId, e),
        Completes(msgId, replies))
  }

  /** The body of the loop for one reply: what it adds to the outputs or
      prints, whether it is an error, and whether it ends the loop. A
      reply that is not a status and answers another request is skipped. */
  method Step(msgId: string, r: Reply, jsonOutput: bool, resultOnly: bool)
    returns (items: seq<OutputItem>, renders: seq<Render>, error: bool, stop: bool)
    ensures items == if jsonOutput then ItemOf(msgId, resultOnly, r) else []
    ensures renders == if jsonOutput then [] else RenderOf(msgId, resultOnly, r)
    ensures error == IsError(msgId, r)
    ensures stop == IsStop(msgId, r)
  {
    items, renders, error, stop := [], [], false, false;
    if r.msgType != Some(Status) && r.parentId != Some(msgId) {
      return;
    }
    if r.msgType == Some(Stream) {
      if resultOnly {
        return;
      }
      if jsonOutput {
        items := [OutputItem(Stream, r.content)];
      } else if r.content.text != "" {
        renders := [Write(r.content.text)];
      }
    } else if r.msgType == Some(ExecuteResult) || r.msgType == Some(DisplayData) {
      if resultOnly && r.msgType != Some(ExecuteResult) {
        return;
      }
      if jsonOutput {
        items := [OutputItem(r.msgType.value, r.content)];
      } else if Truthy(r.content.plainText) {
        renders := [PrintLine(r.content.plainText.value)];
      } else {
        renders := [PrintPayload(r.content)];
      }
    } else if r.msgType == Some(Error) {
      error := true;
      if jsonOutput {
        items := [OutputItem(Error, r.content)];
      } else if r.content.traceback != [] {
        renders := [PrintLine(Join(r.content.traceback, "\n"))];
      } else {
        renders := [PrintContent(r.content)];
      }
    } else if r.msgType == Some(Status) {
      stop := r.content.executionState == Some("idle") && r.parentId == Some(msgId);
    }
  }

  /** The outcome of processing all of xs, none of which stops the loop. */
  function SoFar(msgId: string, jsonOutput: bool, resultOnly: bool, xs: seq<Reply>): Run
  {
    Run(if jsonOutput then Items(msgId, resultOnly, xs) else [],
        if jsonOutput then [] else Renders(msgId, resultOnly, xs),
        ErrorSeen(msgId, xs),
        false)
  }

  /** One more processed reply extends the outcome by its own contribution. */
  lemma RunExtend(msgId: string, jsonOutput: bool, resultOnly: bool, replies: seq<Reply>, i: nat,
                  items: seq<OutputItem>, renders: seq<Render>, error: bool)
    requires i < |replies|
    requires items == if jsonOutput then ItemOf(msgId, resultOnly, replies[i]) else []
    requires renders == if jsonOutput then [] else RenderOf(msgId, resultOnly, replies[i])
    requires error == IsError(msgId, replies[i])
    ensures var run := SoFar(msgId, jsonOutput, resultOnly, replies[..i]);
      SoFar(msgId, jsonOutput, resultOnly, replies[..i + 1]) == Run(run.outputs + items, run.rendered + renders, run.hadError || error, false)
  {
    var p := replies[..i + 1];
    assert p == replies[..i] + [replies[i]];
    RunAppend(msgId, resultOnly, replies[..i], [replies[i]]);
    FlatMapSingle((r: Reply) => ItemOf(msgId, resultOnly, r), replies[i]);
    FlatMapSingle((r: Reply) => RenderOf(msgId, resultOnly, r), replies[i]);
    assert ErrorSeen(msgId, [replies[i]]) == IsError(msgId, replies[i]);
  }

  /** One pass of the loop: the reply at i either stops it, or its
      contribution is added to the outcome of the replies before it. */
  method Advance(msgId: string, replies: seq<Reply>, i: nat, jsonOutput: bool, resultOnly: bool,
                 outputs: seq<OutputItem>, rendered: seq<Render>, hadError: bool)
    returns (outputs': seq<OutputItem>, rendered': seq<Render>, hadError': bool, stop: bool)
    requires i < |replies|
    requires Run(outputs, rendered, hadError, false) == SoFar(msgId, jsonOutput, resultOnly, replies[..i])
    ensures stop == IsStop(msgId, replies[i])
    ensures !stop ==> Run(outputs', rendered', hadError', false) == SoFar(msgId, jsonOutput, resultOnly, replies[..i + 1])
  {
    var items, renders, error;
    items, renders, error, stop := Step(msgId, replies[i], jsonOutput, resultOnly);
    RunExtend(msgId, jsonOutput, resultOnly, replies, i, items, renders, error);
    outputs', rendered', hadError' := outputs + items, rendered + renders, hadError || error;
  }

  /** The `while True` loop of `execute_code`, with `ws.recv()` reading the
      next element of `replies`; `consumed` counts the replies read. */
  method ReadReplies(msgId: string, replies: seq<Reply>, jsonOutput: bool, resultOnly: bool)
    returns (outputs: seq<OutputItem>, rendered: seq<Render>, hadError: bool, consumed: nat, completed: bool)
    ensures Run(outputs, rendered, hadError, completed) == RunOf(msgId, jsonOutput, resultOnly, replies)
    ensures consumed == if completed then |Examined(msgId, replies)| + 1 else |replies|
  {
    outputs, rendered, hadError, completed := [], [], false, false;
    var i := 0;
    while i < |replies|
      invariant 0 <= i <= |replies|
      invariant forall k :: 0 <= k < i ==> !IsStop(msgId, replies[k])
      invariant Run(outputs, rendered, hadError, completed) == SoFar(msgId, jsonOutput, resultOnly, replies[..i])
    {
      var outputs', rendered', hadError', stop := Advance(msgId, replies, i, jsonOutput, resultOnly, outputs, rendered, hadError);
      if stop {
        completed := true;
        break;
      }
      outputs, rendered, hadError := outputs', rendered', hadError';
      i := i + 1;
    }
    consumed := if completed then i + 1 else i;
    LoopOutcome(msgId, jsonOutput, resultOnly, replies, i, Run(outputs, rendered, hadError, completed), consumed);
  }

  /** What the loop has when it ends is the outcome of the whole reply stream. */
  lemma LoopOutcome(msgId: string, jsonOutput: bool, resultOnly: bool, replies: seq<Reply>, i: nat, run: Run, consumed: nat)
    requires i <= |replies|
    requires forall k :: 0 <= k < i ==> !IsStop(msgId, replies[k])
    requires run.completed ==> i < |replies| && IsStop(msgId, replies[i]) && consumed == i + 1
    requires !run.completed ==> i == |replies| && consumed == i
    requires run.(completed := false) == SoFar(msgId, jsonOutput, resultOnly, replies[..i])
    ensures run == RunOf(msgId, jsonOutput, resultOnly, replies)
    ensures consumed == if run.completed then |Examined(msgId, replies)| + 1 else |replies|
  {
    RunOfAt(msgId, jsonOutput, resultOnly, replies, i);
  }

  /** The outcome on replies whose first stop is at i, or that have none when i is their length. */
  lemma RunOfAt(msgId: string, jsonOutput: bool, resultOnly: bool, replies: seq<Reply>, i: nat)
    requires i <= |replies|
    requires forall k :: 0 <= k < i ==> !IsStop(msgId, replies[k])
    requires i == |replies| || IsStop(msgId, replies[i])
    ensures RunOf(msgId, jsonOutput, resultOnly, replies) == SoFar(msgId, jsonOutput, resultOnly, replies[..i]).(completed := i < |replies|)
    ensures |Examined(msgId, replies)| == i
  {
    ExaminedAt(msgId, replies, i);
  }

  /** No reply of xs stops the loop. */
  predicate NoStop(msgId: string, xs: seq<Reply>)
  {
    forall k :: 0 <= k < |xs| ==> !IsStop(msgId, xs[k])
  }

  /** The processed replies of a concatenation. */
  lemma {:induction false} ExaminedAppend(msgId: string, xs: seq<Reply>, ys: seq<Reply>)
    ensures Examined(msgId, xs + ys) == if NoStop(msgId, xs) then xs + Examined(msgId, ys) else Examined(msgId, xs)
    ensures Completes(msgId, xs + ys) == (Completes(msgId, xs) || Completes(msgId, ys))
    decreases |xs|
  {
    CompletesAppend(msgId, xs, ys);
    if xs == [] {
      assert xs + ys == ys;
    } else {
      var zs := xs[1..];
      assert (xs + ys)[0] == xs[0] && (xs + ys)[1..] == zs + ys;
      ExaminedAppend(msgId, zs, ys);
      NoStopCons(msgId, xs);
    }
  }

  /** A sequence has no stop when its head and its tail have none. */
  lemma NoStopCons(msgId: string, xs: seq<Reply>)
    requires xs != []
    ensures NoStop(msgId, xs) <==> !IsStop(msgId, xs[0]) && NoStop(msgId, xs[1..])
  {
    var zs := xs[1..];
    forall k | 0 <= k < |zs| ensures zs[k] == xs[k + 1] { }
    if !NoStop(msgId, xs) && !IsStop(msgId, xs[0]) {
      var k :| 0 <= k < |xs| && IsStop(msgId, xs[k]);
      assert IsStop(msgId, zs[k - 1]);
    }
  }

  /** A concatenation stops the loop when one of its parts does. */
  lemma CompletesAppend(msgId: string, xs: seq<Reply>, ys: seq<Reply>)
    ensures Completes(msgId, xs + ys) == (Completes(msgId, xs) || Completes(msgId, ys))
  {
    if Completes(msgId, xs + ys) {
      var k :| 0 <= k < |xs + ys| && IsStop(msgId, (xs + ys)[k]);
      if k < |xs| { assert (xs + ys)[k] == xs[k]; } else { assert (xs + ys)[k] == ys[k - |xs|]; }
    }
    if Completes(msgId, xs) {
      var k :| 0 <= k < |xs| && IsStop(msgId, xs[k]);
      assert (xs + ys)[k] == xs[k];
    }
    if Completes(msgId, ys) {
      var k :| 0 <= k < |ys| && IsStop(msgId, ys[k]);
      assert (xs + ys)[|xs| + k] == ys[k];
    }
  }

  lemma ErrorSeenAppend(msgId: string, xs: seq<Reply>, ys: seq<Reply>)
    ensures ErrorSeen(msgId, xs + ys) == (ErrorSeen(msgId, xs) || ErrorSeen(msgId, ys))
  {
    if ErrorSeen(msgId, xs + ys) {
      var k :| 0 <= k < |xs + ys| && IsError(msgId, (xs + ys)[k]);
      if k < |xs| { assert (xs + ys)[k] == xs[k]; } else { assert (xs + ys)[k] == ys[k - |xs|]; }
    }
    if ErrorSeen(msgId, xs) {
      var k :| 0 <= k < |xs| && IsError(msgId, xs[k]);
      assert (xs + ys)[k] == xs[k];
    }
    if ErrorSeen(msgId, ys) {
      var k :| 0 <= k < |ys| && IsError(msgId, ys[k]);
      assert (xs + ys)[|xs| + k] == ys[k];
    }
  }

  /** The contributions of processed replies concatenate in arrival order. */
  lemma RunAppend(msgId: string, resultOnly: bool, xs: seq<Reply>, ys: seq<Reply>)
    ensures Items(msgId, resultOnly, xs + ys) == Items(msgId, resultOnly, xs) + Items(msgId, resultOnly, ys)
    ensures Renders(msgId, resultOnly, xs + ys) == Renders(msgId, resultOnly, xs) + Renders(msgId, resultOnly, ys)
    ensures ErrorSeen(msgId, xs + ys) == (ErrorSeen(msgId, xs) || ErrorSeen(msgId, ys))
  {
    FlatMapAppend((r: Reply) => ItemOf(msgId, resultOnly, r), xs, ys);
    FlatMapAppend((r: Reply) => RenderOf(msgId, resultOnly, r), xs, ys);
    ErrorSeenAppend(msgId, xs, ys);
  }

  /** A foreign reply adds no output item. */
  lemma ItemsSkipForeign(msgId: string, resultOnly: bool, xs: seq<Reply>, r: Reply, e: seq<Reply>)
    requires r.msgType != Some(Status) && r.parentId != Some(msgId)
    ensures Items(msgId, resultOnly, xs + [r] + e) == Items(msgId, resultOnly, xs + e)
  {
    FlatMapSkip((q: Reply) => ItemOf(msgId, resultOnly, q), xs, r, e);
  }

  /** A foreign reply prints nothing. */
  lemma RendersSkipForeign(msgId: string, resultOnly: bool, xs: seq<Reply>, r: Reply, e: seq<Reply>)
    requires r.msgType != Some(Status) && r.parentId != Some(msgId)
    ensures Renders(msgId, resultOnly, xs + [r] + e) == Renders(msgId, resultOnly, xs + e)
  {
    FlatMapSkip((q: Reply) => RenderOf(msgId, resultOnly, q), xs, r, e);
  }

  /** A foreign reply is no error of the request. */
  lemma ErrorSeenSkipForeign(msgId: string, xs: seq<Reply>, r: Reply, e: seq<Reply>)
    requires r.parentId != Some(msgId)
    ensures ErrorSeen(msgId, xs + [r] + e) == ErrorSeen(msgId, xs + e)
  {
    assert xs + [r] + e == xs + ([r] + e);
    ErrorSeenAppend(msgId, xs, [r] + e);
    ErrorSeenAppend(msgId, [r], e);
    ErrorSeenAppend(msgId, xs, e);
    assert [r][0] == r;
  }

  /** Where a foreign reply arrives, the processed replies gain just that reply. */
  lemma ExaminedForeign(msgId: string, xs: seq<Reply>, r: Reply, ys: seq<Reply>)
    requires r.msgType != Some(Status)
    ensures Examined(msgId, xs + [r] + ys) == if NoStop(msgId, xs) then xs + [r] + Examined(msgId, ys) else Examined(msgId, xs)
    ensures Examined(msgId, xs + ys) == if NoStop(msgId, xs) then xs + Examined(msgId, ys) else Examined(msgId, xs)
    ensures Completes(msgId, xs + [r] + ys) == Completes(msgId, xs + ys)
  {
    assert xs + [r] + ys == xs + ([r] + ys);
    ExaminedAppend(msgId, xs, [r] + ys);
    ExaminedAppend(msgId, xs, ys);
    ExaminedAppend(msgId, [r], ys);
    assert [r][..0] == [] && [r][0] == r;
    assert NoStop(msgId, [r]) && !Completes(msgId, [r]);
  }

  /** A reply that is not a status and answers another request changes
      nothing, wherever it arrives. */
  lemma ForeignReplyIgnored(msgId: string, jsonOutput: bool, resultOnly: bool, xs: seq<Reply>, r: Reply, ys: seq<Reply>)
    requires r.msgType != Some(Status) && r.parentId != Some(msgId)
    ensures RunOf(msgId, jsonOutput, resultOnly, xs + [r] + ys) == RunOf(msgId, jsonOutput, resultOnly, xs + ys)
  {
    ExaminedForeign(msgId, xs, r, ys);
    if NoStop(msgId, xs) {
      var e := Examined(msgId, ys);
      ItemsSkipForeign(msgId, resultOnly, xs, r, e);
      RendersSkipForeign(msgId, resultOnly, xs, r, e);
      ErrorSeenSkipForeign(msgId, xs, r, e);
    }
  }

  /** Replies after the first stop are never examined. */
  lemma StopIgnoresLaterReplies(msgId: string, jsonOutput: bool, resultOnly: bool, xs: seq<Reply>, r: Reply, ys: seq<Reply>, zs: seq<Reply>)
    requires IsStop(msgId, r)
    ensures RunOf(msgId, jsonOutput, resultOnly, xs + [r] + ys) == RunOf(msgId, jsonOutput, resultOnly, xs + [r] + zs)
  {
    assert xs + [r] + ys == xs + ([r] + ys);
    assert xs + [r] + zs == xs + ([r] + zs);
    ExaminedAppend(msgId, xs, [r] + ys);
    ExaminedAppend(msgId, xs, [r] + zs);
    assert ([r] + ys)[0] == r && ([r] + zs)[0] == r;
    assert Completes(msgId, [r] + ys) && Completes(msgId, [r] + zs);
  }

  /** The status is "error" exactly when an error answering the request
      arrived with no stop before it. */
  lemma ErrorStatusIff(msgId: string, jsonOutput: bool, resultOnly: bool, replies: seq<Reply>)
    ensures RunOf(msgId, jsonOutput, resultOnly, replies).hadError <==>
      exists k :: 0 <= k < |replies| && IsError(msgId, replies[k]) && NoStop(msgId, replies[..k])
  {
    var e := Examined(msgId, replies);
    ExaminedMeans(msgId, replies);
    if ErrorSeen(msgId, e) {
      var k :| 0 <= k < |e| && IsError(msgId, e[k]);
      assert replies[k] == e[k];
      assert forall j :: 0 <= j < k ==> replies[..k][j] == replies[j];
    }
    if exists k :: 0 <= k < |replies| && IsError(msgId, replies[k]) && NoStop(msgId, replies[..k]) {
      var k :| 0 <= k < |replies| && IsError(msgId, replies[k]) && NoStop(msgId, replies[..k]);
      forall j | 0 <= j < k ensures !IsStop(msgId, replies[j]) {
        assert replies[..k][j] == replies[j];
      }
      assert !IsStop(msgId, replies[k]);
      assert k < |e|;
      assert e[k] == replies[k];
    }
  }

  /** Result-only mode keeps exactly the result and error items of the full
      output, in the same order. */
  lemma {:induction false} ResultOnlyDropsStreams(msgId: string, replies: seq<Reply>)
    ensures Items(msgId, true, replies) == Filter((o: OutputItem) => o.kind == ExecuteResult || o.kind == Error, Items(msgId, false, replies))
    decreases |replies|
  {
    var p := (o: OutputItem) => o.kind == ExecuteResult || o.kind == Error;
    if replies != [] {
      var init, r := replies[..|replies| - 1], replies[|replies| - 1];
      ResultOnlyDropsStreams(msgId, init);
      FilterAppend(p, Items(msgId, false, init), ItemOf(msgId, false, r));
      ResultOnlyDropsStream(msgId, r);
    }
  }

  /** One reply: its result-only item is its full item when that is a result or an error. */
  lemma ResultOnlyDropsStream(msgId: string, r: Reply)
    ensures ItemOf(msgId, true, r) == Filter((o: OutputItem) => o.kind == ExecuteResult || o.kind == Error, ItemOf(msgId, false, r))
  {
    if Kept(msgId, false, r) {
      assert ItemOf(msgId, false, r)[..0] == [];
    }
  }

  /** In JSON mode each kept reply adds exactly one item, in arrival order:
      nothing is reordered, merged or dropped. */
  lemma {:induction false} ItemsAreKeptReplies(msgId: string, resultOnly: bool, replies: seq<Reply>)
    ensures var kept := Filter((r: Reply) => Kept(msgId, resultOnly, r), replies);
      var items := Items(msgId, resultOnly, replies);
      |items| == |kept| &&
      forall i :: 0 <= i < |kept| ==> items[i] == ItemFor(kept[i])
    decreases |replies|
  {
    if replies != [] {
      ItemsAreKeptReplies(msgId, resultOnly, replies[..|replies| - 1]);
    }
  }

  /** A busy status, one plain-text result and the idle status give one
      output item and the status "ok". */
  lemma ResultExample(msgId: string, c: Content, busy: Content, idle: Content)
    requires c.plainText == Some("2")
    requires busy.executionState == Some("busy") && idle.executionState == Some("idle")
    ensures var replies := [Reply(Some(Status), Some(msgId), busy), Reply(Some(ExecuteResult), Some(msgId), c), Reply(Some(Status), Some(msgId), idle)];
      RunOf(msgId, true, false, replies) == Run([OutputItem(ExecuteResult, c)], [], false, true) &&
      RunOf(msgId, false, false, replies) == Run([], [PrintLine("2")], false, true)
  {
    var replies := [Reply(Some(Status), Some(msgId), busy), Reply(Some(ExecuteResult), Some(msgId), c), Reply(Some(Status), Some(msgId), idle)];
    ExaminedAt(msgId, replies, 2);
    var e := replies[..2];
    assert e == [replies[0]] + [replies[1]];
    RunAppend(msgId, false, [replies[0]], [replies[1]]);
    FlatMapSingle((q: Reply) => ItemOf(msgId, false, q), replies[0]);
    FlatMapSingle((q: Reply) => ItemOf(msgId, false, q), replies[1]);
    FlatMapSingle((q: Reply) => RenderOf(msgId, false, q), replies[0]);
    FlatMapSingle((q: Reply) => RenderOf(msgId, false, q), replies[1]);
    assert !ErrorSeen(msgId, [replies[0]]) && !ErrorSeen(msgId, [replies[1]]);
    assert IsStop(msgId, replies[2]);
  }

  /** The header of the request; `username`, `msg_type` and `version` are fixed. */
  datatype Header = Header(msgId: string, username: string, session: string, date: string, msgType: string, version: string)

  /** The content of an execute request; `user_expressions` is always empty. */
  datatype RequestContent = RequestContent(code: string, silent: bool, storeHistory: bool, allowStdin: bool, stopOnError: bool)

  /** The message sent on the socket; its `parent_header` and `metadata` are empty. */
  datatype Request = Request(header: Header, content: RequestContent, channel: string)

  /** The execute request for code, under a fresh message id and session id and the current time. */
  function ExecuteRequest(msgId: string, sessionId: string, date: string, code: string): (m: Request)
    ensures m.header.msgId == msgId && m.header.session == sessionId && m.header.date == date && m.content.code == code
    ensures m.header.username == "api" && m.header.msgType == "execute_request" && m.header.version == "5.3" && m.channel == "shell"
    ensures !m.content.silent && m.content.storeHistory && !m.content.allowStdin && m.content.stopOnError
  {
    Request(Header(msgId, "api", sessionId, date, "execute_request", "5.3"), RequestContent(code, false, true, false, true), "shell")
  }

  /** The JSON summary printed at the end in JSON mode. */
  datatype Summary = Summary(kernelId: string, msgId: string, status: string, outputs: seq<OutputItem>)

  /** `execute_code` after the websocket import: the websocket URL, the
      request sent, what console mode prints, and the summary of JSON mode.
      The ids and the date come from the caller; `replies` is what the
      socket delivers. Without an idle status the source times out, so no
      summary is printed. */
  method ExecuteCode(base: UrlParts, token: Option<string>, kernelId: string, code: string, quote: string -> string,
                     msgId: string, sessionId: string, date: string,
                     replies: seq<Reply>, jsonOutput: bool, resultOnly: bool)
    returns (wsUrl: string, request: Request, rendered: seq<Render>, summary: Option<Summary>, completed: bool)
    ensures wsUrl == BuildWsUrl(base, kernelId, token, quote)
    ensures request == ExecuteRequest(msgId, sessionId, date, code)
    ensures var run := RunOf(request.header.msgId, jsonOutput, resultOnly, replies);
      completed == run.completed && rendered == run.rendered &&
      summary == if jsonOutput && completed then Some(Summary(kernelId, msgId, if run.hadError then "error" else "ok", run.outputs)) else None
  {
    wsUrl := BuildWsUrl(base, kernelId, token, quote);
    request := ExecuteRequest(msgId, sessionId, date, code);
    var outputs, hadError, consumed;
    outputs, rendered, hadError, consumed, completed := ReadReplies(request.header.msgId, replies, jsonOutput, resultOnly);
    summary := None;
    if jsonOutput && completed {
      summary := Some(Summary(kernelId, msgId, if hadError then "error" else "ok", outputs));
    }
  }
}

=== FILE: resolver.dfy ===
/** `resolve_kernel_target`: pick the one kernel that a `--kernel-id` or a
    `--kernel-match` reference designates among the gathered records. */
module Resolver {
  import opened Seqs
  import opened Text
  import opened SessionNames
  import opened Directory

  /** How the kernel is designated: by exact id, by a `re:` pattern, by a
      plain reference, or not at all. */
  datatype Selector = ById(id: string) | ByRegex(pattern: string) | BySubstring(reference: string) | NoSelector

  const RegexPrefix: string := "re:"

  /** The kernel id wins over a match; a match starting with `re:` is a
      pattern (the rest of it), any other non-empty match a plain reference. */
  function SelectorFor(kernelId: Option<string>, kernelMatch: Option<string>): (r: Selector)
    ensures r.ById? <==> Truthy(kernelId)
    ensures r.NoSelector? <==> !Truthy(kernelId) && !Truthy(kernelMatch)
    ensures r.ById? ==> r.id == kernelId.value
    ensures r.ByRegex? ==> kernelMatch.Some? && kernelMatch.value == RegexPrefix + r.pattern
    ensures r.BySubstring? ==> kernelMatch == Some(r.reference) && r.reference != "" && !StartsWith(r.reference, RegexPrefix)
  {
    if Truthy(kernelId) then ById(kernelId.value)
    else if Truthy(kernelMatch) then
      var m := kernelMatch.value;
      if StartsWith(m, RegexPrefix) then
        assert m == RegexPrefix + m[3..];
        ByRegex(m[3..])
      else BySubstring(m)
    else NoSelector
  }

  /** Whether a record is one of the matches. */
  predicate Selects(sel: Selector, regex: Regex, r: Record)
  {
    match sel
    case ById(id) => r.kernelId == id
    case ByRegex(pattern) => exists v :: v in Matchable(r.session) && regex.search(pattern, v)
    case BySubstring(reference) => MatchesSubstring(r.session, reference)
    case NoSelector => false
  }

  /** The matches, in record order. */
  function Matching(sel: Selector, regex: Regex, records: seq<Record>): seq<Record>
  {
    Filter((r: Record) => Selects(sel, regex, r), records)
  }

  /** Every record of the directory that is selected, and nothing else. */
  lemma MatchingMember(sel: Selector, regex: Regex, records: seq<Record>, r: Record)
    ensures r in Matching(sel, regex, records) <==> r in records && Selects(sel, regex, r)
  {
    FilterMember((r: Record) => Selects(sel, regex, r), records, r);
  }

  /** What is shown when no record matched. */
  function NoMatchMessage(sel: Selector): string
  {
    match sel
    case ById(id) => "No sessions matched kernel id: " + id
    case ByRegex(pattern) => "No sessions matched regex: " + pattern
    case BySubstring(reference) => "No sessions matched substring: " + reference
    case NoSelector => ""
  }

  /** How a session field is shown: an absent key as "", a string as itself,
      any other value as Python's `str()` of it. */
  function Show(f: Field): string
  {
    match f
    case Absent => ""
    case Str(s) => s
    case NonStr(shown) => shown
  }

  /** `_record_line`: `<id> | <url> | path=<path> | name=<name>`. */
  function RecordLine(r: Record): (line: string)
    ensures StartsWith(line, r.kernelId + " | " + r.baseUrl + " | path=")
  {
    var head := r.kernelId + " | " + r.baseUrl + " | path=";
    var line := head + Show(r.session.path) + " | name=" + Show(r.session.name);
    assert line[..|head|] == head;
    line
  }

  /** Kernel ids without '|' are told apart by their lines. */
  lemma RecordLinesDistinct(a: Record, b: Record)
    requires '|' !in a.kernelId && '|' !in b.kernelId && a.kernelId != b.kernelId
    ensures RecordLine(a) != RecordLine(b)
  {
    var la, lb := RecordLine(a), RecordLine(b);
    var x, y := a.kernelId, b.kernelId;
    assert la[..|x| + 3] == x + " | " && lb[..|y| + 3] == y + " | ";
    if |x| == |y| {
      var i :| 0 <= i < |x| && x[i] != y[i];
      assert la[i] == x[i] && lb[i] == y[i];
    } else if |x| < |y| {
      assert la[|x| + 1] == '|';
      assert lb[|x| + 1] == (y + " | ")[|x| + 1];
    } else {
      assert lb[|y| + 1] == '|';
      assert la[|y| + 1] == (x + " | ")[|y| + 1];
    }
  }

  function RecordLines(records: seq<Record>): seq<string>
  {
    FlatMap((r: Record) => [RecordLine(r)], records)
  }

  lemma {:induction false} RecordLinesAt(records: seq<Record>)
    ensures |RecordLines(records)| == |records|
    ensures forall i :: 0 <= i < |records| ==> RecordLines(records)[i] == RecordLine(records[i])
    decreases |records|
  {
    if records != [] {
      RecordLinesAt(records[..|records| - 1]);
    }
  }

  /** The base URLs listed under "Searched servers:". */
  function BaseUrls(servers: seq<Server>): seq<string>
  {
    FlatMap((s: Server) => [s.baseUrl], servers)
  }

  /** The outcome of the resolution. The failures carry what is printed
      before the exit: the searched base URLs and the query errors, the
      regex error, the no-match message, or one line per candidate. */
  datatype Resolution =
    | Resolved(baseUrl: string, token: Option<string>, kernelId: string)
    | NoSessions(searched: seq<string>, errors: seq<string>)
    | InvalidRegex(error: string)
    | Missing
    | NoMatch(message: string, searched: seq<string>, errors: seq<string>)
    | Ambiguous(candidates: seq<string>)

  /** The "exactly one match" decision. */
  function Decide(matches: seq<Record>, message: string, searched: seq<string>, errors: seq<string>): Resolution
  {
    if matches == [] then NoMatch(message, searched, errors)
    else if |matches| > 1 then Ambiguous(RecordLines(matches))
    else Resolved(matches[0].baseUrl, matches[0].token, matches[0].kernelId)
  }

  /** The resolution the script arrives at for a directory and the two arguments. */
  function Resolve(http: Http, regex: Regex, servers: seq<Server>, kernelId: Option<string>, kernelMatch: Option<string>): Resolution
  {
    var records := AllRecords(http, servers);
    var searched := BaseUrls(servers);
    var errors := AllErrors(http, servers);
    var sel := SelectorFor(kernelId, kernelMatch);
    if records == [] then NoSessions(searched, errors)
    else if sel.NoSelector? then Missing
    else if sel.ByRegex? && regex.compileError(sel.pattern).Some? then InvalidRegex(regex.compileError(sel.pattern).value)
    else Decide(Matching(sel, regex, records), NoMatchMessage(sel), searched, errors)
  }

  /** Whether one record is selected, computed as the script does. */
  method RecordSelected(sel: Selector, regex: Regex, r: Record) returns (b: bool)
    ensures b == Selects(sel, regex, r)
  {
    match sel
    case ById(id) => b := r.kernelId == id;
    case ByRegex(pattern) => b := SessionMatchesRegex(r.session, regex, pattern);
    case BySubstring(reference) => b := SessionMatchesSubstring(r.session, reference);
    case NoSelector => b := false;
  }

  /** The list comprehension over the records. */
  method MatchRecords(sel: Selector, regex: Regex, records: seq<Record>) returns (matches: seq<Record>)
    ensures matches == Matching(sel, regex, records)
  {
    matches := [];
    for i := 0 to |records|
      invariant matches == Matching(sel, regex, records[..i])
    {
      assert records[..i + 1][..i] == records[..i];
      var b := RecordSelected(sel, regex, records[i]);
      if b {
        matches := matches + [records[i]];
      }
    }
    assert records[..|records|] == records;
  }

  /** The loop printing one line per candidate. */
  method CandidateLines(matches: seq<Record>) returns (lines: seq<string>)
    ensures lines == RecordLines(matches)
  {
    lines := [];
    for i := 0 to |matches|
      invariant lines == RecordLines(matches[..i])
    {
      assert matches[..i + 1][..i] == matches[..i];
      lines := lines + [RecordLine(matches[i])];
    }
    assert matches[..|matches|] == matches;
  }

  /** `resolve_kernel_target`, with every `sys.exit` a failure outcome. */
  method ResolveKernelTarget(http: Http, regex: Regex, servers: seq<Server>, kernelId: Option<string>, kernelMatch: Option<string>)
    returns (res: Resolution)
    ensures res == Resolve(http, regex, servers, kernelId, kernelMatch)
  {
    var records, errors := CollectRecords(http, servers);
    if |records| == 0 {
      return NoSessions(BaseUrls(servers), errors);
    }
    var sel: Selector;
    if Truthy(kernelId) {
      sel := ById(kernelId.value);
    } else if Truthy(kernelMatch) {
      var m := kernelMatch.value;
      if StartsWith(m, RegexPrefix) {
        var pattern := m[3..];
        var compileError := regex.compileError(pattern);
        if compileError.Some? {
          return InvalidRegex(compileError.value);
        }
        sel := ByRegex(pattern);
      } else {
        sel := BySubstring(m);
      }
    } else {
      return Missing;
    }
    assert sel == SelectorFor(kernelId, kernelMatch);
    var matches := MatchRecords(sel, regex, records);
    if |matches| == 0 {
      return NoMatch(NoMatchMessage(sel), BaseUrls(servers), errors);
    }
    if |matches| > 1 {
      var lines := CandidateLines(matches);
      return Ambiguous(lines);
    }
    var chosen := matches[0];
    return Resolved(chosen.baseUrl, chosen.token, chosen.kernelId);
  }

  /** Resolution fails with the search context exactly when no server
      yielded a record. */
  lemma NoSessionsIff(http: Http, regex: Regex, servers: seq<Server>, kernelId: Option<string>, kernelMatch: Option<string>)
    ensures Resolve(http, regex, servers, kernelId, kernelMatch).NoSessions? <==> AllRecords(http, servers) == []
    ensures AllRecords(http, servers) == [] ==>
      Resolve(http, regex, servers, kernelId, kernelMatch) == NoSessions(BaseUrls(servers), AllErrors(http, servers))
  {
  }

  /** A resolution is the sole selected record: its URL, token and id, and
      it came from a server that answered with its session. */
  lemma ResolvedIsSoleMatch(http: Http, regex: Regex, servers: seq<Server>, kernelId: Option<string>, kernelMatch: Option<string>)
    requires Resolve(http, regex, servers, kernelId, kernelMatch).Resolved?
    ensures var res := Resolve(http, regex, servers, kernelId, kernelMatch);
      var sel := SelectorFor(kernelId, kernelMatch);
      exists r :: Matching(sel, regex, AllRecords(http, servers)) == [r] && Selects(sel, regex, r) &&
        res == Resolved(r.baseUrl, r.token, r.kernelId) &&
        exists i :: 0 <= i < |servers| && CameFrom(http, servers[i], r)
  {
    var sel := SelectorFor(kernelId, kernelMatch);
    var records := AllRecords(http, servers);
    var matches := Matching(sel, regex, records);
    var r := matches[0];
    assert matches == [r];
    MatchingMember(sel, regex, records, r);
    RecordsCarryTheirServer(http, servers, r);
  }

  /** Conversely, a single selected record is the resolution. */
  lemma SoleMatchResolves(http: Http, regex: Regex, servers: seq<Server>, kernelId: Option<string>, kernelMatch: Option<string>, r: Record)
    requires var sel := SelectorFor(kernelId, kernelMatch);
      !(sel.ByRegex? && regex.compileError(sel.pattern).Some?) &&
      Matching(sel, regex, AllRecords(http, servers)) == [r]
    ensures Resolve(http, regex, servers, kernelId, kernelMatch) == Resolved(r.baseUrl, r.token, r.kernelId)
  {
    var sel := SelectorFor(kernelId, kernelMatch);
    MatchingMember(sel, regex, AllRecords(http, servers), r);
  }

  /** With a kernel id, the match argument plays no part, and the resolved
      kernel is the one asked for. */
  lemma KernelIdTakesPrecedence(http: Http, regex: Regex, servers: seq<Server>, kernelId: Option<string>, m1: Option<string>, m2: Option<string>)
    requires Truthy(kernelId)
    ensures Resolve(http, regex, servers, kernelId, m1) == Resolve(http, regex, servers, kernelId, m2)
    ensures Resolve(http, regex, servers, kernelId, m1).Resolved? ==> Resolve(http, regex, servers, kernelId, m1).kernelId == kernelId.value
  {
    var records := AllRecords(http, servers);
    var matches := Matching(ById(kernelId.value), regex, records);
    if |matches| == 1 {
      MatchingMember(ById(kernelId.value), regex, records, matches[0]);
    }
  }

  /** An invalid pattern fails before any matching: the outcome does not
      depend on what the pattern would find. */
  lemma InvalidRegexBeforeMatching(http: Http, compileError: string -> Option<string>, s1: (string, string) -> bool, s2: (string, string) -> bool,
                                   servers: seq<Server>, kernelId: Option<string>, kernelMatch: Option<string>)
    requires !Truthy(kernelId) && Truthy(kernelMatch) && StartsWith(kernelMatch.value, RegexPrefix)
    requires compileError(kernelMatch.value[3..]).Some?
    requires AllRecords(http, servers) != []
    ensures Resolve(http, Regex(compileError, s1), servers, kernelId, kernelMatch) == InvalidRegex(compileError(kernelMatch.value[3..]).value)
    ensures Resolve(http, Regex(compileError, s1), servers, kernelId, kernelMatch) == Resolve(http, Regex(compileError, s2), servers, kernelId, kernelMatch)
  {
  }

  /** Several matches fail and list every candidate, in record order. */
  lemma AmbiguousListsEveryCandidate(http: Http, regex: Regex, servers: seq<Server>, kernelId: Option<string>, kernelMatch: Option<string>)
    requires Resolve(http, regex, servers, kernelId, kernelMatch).Ambiguous?
    ensures var sel := SelectorFor(kernelId, kernelMatch);
      var matches := Matching(sel, regex, AllRecords(http, servers));
      var c := Resolve(http, regex, servers, kernelId, kernelMatch).candidates;
      |matches| > 1 && |c| == |matches| && forall i :: 0 <= i < |c| ==> c[i] == RecordLine(matches[i])
  {
    var sel := SelectorFor(kernelId, kernelMatch);
    RecordLinesAt(Matching(sel, regex, AllRecords(http, servers)));
  }

  /** Two selected records, even with the same session, make the reference ambiguous. */
  lemma TwoMatchesAmbiguous(http: Http, regex: Regex, servers: seq<Server>, kernelId: Option<string>, kernelMatch: Option<string>, i: nat, j: nat)
    requires var sel := SelectorFor(kernelId, kernelMatch);
      var records := AllRecords(http, servers);
      i < j < |records| && Selects(sel, regex, records[i]) && Selects(sel, regex, records[j]) &&
      !(sel.ByRegex? && regex.compileError(sel.pattern).Some?)
    ensures Resolve(http, regex, servers, kernelId, kernelMatch).Ambiguous?
  {
    var sel := SelectorFor(kernelId, kernelMatch);
    var records := AllRecords(http, servers);
    var p := (r: Record) => Selects(sel, regex, r);
    assert records == records[..j] + records[j..];
    FilterAppend(p, records[..j], records[j..]);
    FilterMember(p, records[..j], records[i]);
    FilterMember(p, records[j..], records[j]);
  }

  /** No match fails with the selector's message and the search context. */
  lemma NoMatchMeans(http: Http, regex: Regex, servers: seq<Server>, kernelId: Option<string>, kernelMatch: Option<string>)
    requires AllRecords(http, servers) != []
    requires var sel := SelectorFor(kernelId, kernelMatch);
      !sel.NoSelector? && !(sel.ByRegex? && regex.compileError(sel.pattern).Some?)
    ensures var sel := SelectorFor(kernelId, kernelMatch);
      Resolve(http, regex, servers, kernelId, kernelMatch).NoMatch? <==>
        forall r :: r in AllRecords(http, servers) ==> !Selects(sel, regex, r)
  {
    var sel := SelectorFor(kernelId, kernelMatch);
    var records := AllRecords(http, servers);
    var matches := Matching(sel, regex, records);
    if matches != [] {
      MatchingMember(sel, regex, records, matches[0]);
    } else {
      forall r | r in records ensures !Selects(sel, regex, r) {
        MatchingMember(sel, regex, records, r);
      }
    }
  }
}

=== FILE: seqs.dfy ===
/** Generic vocabulary shared by the other modules: an optional value and
    the two list comprehensions the script is built from (a filter, and a
    nested loop that appends zero or more items per element). */
module Seqs {

  datatype Option<+T> = None | Some(value: T)

  /** The outcome of an operation that may raise: a value or the error text. */
  datatype Result<+T> = Success(value: T) | Failure(error: string)

  /** The concatenation of f(x) for every x of xs, in order. */
  function FlatMap<A, B>(f: A -> seq<B>, xs: seq<A>): seq<B>
  {
    if xs == [] then [] else FlatMap(f, xs[..|xs| - 1]) + f(xs[|xs| - 1])
  }

  /** The elements of xs that satisfy p, in order. */
  function Filter<A>(p: A -> bool, xs: seq<A>): seq<A>
  {
    if xs == [] then [] else Filter(p, xs[..|xs| - 1]) + (if p(xs[|xs| - 1]) then [xs[|xs| - 1]] else [])
  }

  lemma {:induction false} FlatMapAppend<A, B>(f: A -> seq<B>, xs: seq<A>, ys: seq<A>)
    ensures FlatMap(f, xs + ys) == FlatMap(f, xs) + FlatMap(f, ys)
    decreases |ys|
  {
    if ys == [] {
      assert xs + ys == xs;
    } else {
      var zs := ys[..|ys| - 1];
      assert (xs + ys)[..|xs + ys| - 1] == xs + zs;
      assert (xs + ys)[|xs + ys| - 1] == ys[|ys| - 1];
      FlatMapAppend(f, xs, zs);
    }
  }

  lemma FlatMapSingle<A, B>(f: A -> seq<B>, x: A)
    ensures FlatMap(f, [x]) == f(x)
  {
    assert [x][..0] == [];
  }

  /** The elements before xs[k] contribute first, then xs[k], then the rest. */
  lemma FlatMapSplit<A, B>(f: A -> seq<B>, xs: seq<A>, k: nat)
    requires k < |xs|
    ensures FlatMap(f, xs) == FlatMap(f, xs[..k]) + f(xs[k]) + FlatMap(f, xs[k + 1..])
  {
    SplitAround(xs, k);
    FlatMapMiddle(f, xs[..k], xs[k], xs[k + 1..]);
  }

  lemma SplitAround<A>(xs: seq<A>, k: nat)
    requires k < |xs|
    ensures xs == xs[..k] + [xs[k]] + xs[k + 1..]
  {
  }

  lemma FlatMapMiddle<A, B>(f: A -> seq<B>, xs: seq<A>, x: A, ys: seq<A>)
    ensures FlatMap(f, xs + [x] + ys) == FlatMap(f, xs) + f(x) + FlatMap(f, ys)
  {
    FlatMapAppend(f, xs + [x], ys);
    FlatMapAppend(f, xs, [x]);
    FlatMapSingle(f, x);
  }

  /** An element that contributes nothing can be left out. */
  lemma FlatMapSkip<A, B>(f: A -> seq<B>, xs: seq<A>, x: A, ys: seq<A>)
    requires f(x) == []
    ensures FlatMap(f, xs + [x] + ys) == FlatMap(f, xs + ys)
  {
    FlatMapAppend(f, xs + [x], ys);
    FlatMapAppend(f, xs, [x]);
    FlatMapSingle(f, x);
    FlatMapAppend(f, xs, ys);
  }

  lemma {:induction false} FlatMapMember<A, B>(f: A -> seq<B>, xs: seq<A>, b: B)
    ensures b in FlatMap(f, xs) <==> exists i :: 0 <= i < |xs| && b in f(xs[i])
    decreases |xs|
  {
    if xs != [] {
      var ys := xs[..|xs| - 1];
      FlatMapMember(f, ys, b);
      if b in FlatMap(f, xs) {
        if b !in f(xs[|xs| - 1]) {
          var i :| 0 <= i < |ys| && b in f(ys[i]);
          assert xs[i] == ys[i];
        }
      } else {
        forall i | 0 <= i < |xs| ensures b !in f(xs[i]) {
          if i < |ys| { assert xs[i] == ys[i]; }
        }
      }
    }
  }

  lemma {:induction false} FilterMember<A>(p: A -> bool, xs: seq<A>, x: A)
    ensures x in Filter(p, xs) <==> x in xs && p(x)
    decreases |xs|
  {
    if xs != [] {
      var ys := xs[..|xs| - 1];
      FilterMember(p, ys, x);
      assert xs == ys + [xs[|xs| - 1]];
    }
  }

  lemma {:induction false} FilterAppend<A>(p: A -> bool, xs: seq<A>, ys: seq<A>)
    ensures Filter(p, xs + ys) == Filter(p, xs) + Filter(p, ys)
    decreases |ys|
  {
    if ys == [] {
      assert xs + ys == xs;
    } else {
      var zs := ys[..|ys| - 1];
      assert (xs + ys)[..|xs + ys| - 1] == xs + zs;
      assert (xs + ys)[|xs + ys| - 1] == ys[|ys| - 1];
      FilterAppend(p, xs, zs);
    }
  }
}

=== FILE: session_names.dfy ===
/** How a session's `path` and `name` are turned into matchable strings, and
    how a plain or `re:` reference is matched against them. */
module SessionNames {
  import opened Seqs
  import opened Text

  /** The JSON value found under one key of a session object: absent, a
      string, or anything else (`shown` is what Python's `str()` prints). */
  datatype Field = Absent | Str(s: string) | NonStr(shown: string)

  /** The `kernel` entry of a session object. */
  datatype KernelEntry = NoKernel | KernelNotObject | KernelObject(id: Field)

  /** A session object of the `/api/sessions` listing; only `path`, `name`
      and `kernel` are interpreted, the rest is opaque. */
  datatype Session = Session(path: Field, name: Field, kernel: KernelEntry)

  /** `isinstance(raw, str) and raw`. */
  predicate NonEmptyStr(f: Field)
  {
    f.Str? && f.s != ""
  }

  const Ipynb: string := ".ipynb"
  const Jvsc: string := "-jvsc-"

  /** No dot in s[lo..hi]. */
  predicate DotFree(s: string, lo: int, hi: int)
    requires 0 <= lo <= hi <= |s|
    decreases hi - lo
  {
    lo == hi || (s[lo] != '.' && DotFree(s, lo + 1, hi))
  }

  lemma {:induction false} DotFreeMeans(s: string, lo: int, hi: int)
    requires 0 <= lo <= hi <= |s|
    ensures DotFree(s, lo, hi) <==> forall k :: lo <= k < hi ==> s[k] != '.'
    decreases hi - lo
  {
    if lo < hi {
      DotFreeMeans(s, lo + 1, hi);
    }
  }

  /** `-jvsc-[^.]+(?=\.ipynb$)` matches s at position i: the marker, a
      non-empty dot-free run, and a literal `.ipynb` that ends the string. */
  predicate JvscAt(s: string, i: int)
  {
    6 <= |s| && s[|s| - 6..] == Ipynb &&
    0 <= i && i + 6 < |s| - 6 && s[i..i + 6] == Jvsc &&
    DotFree(s, i + 6, |s| - 6)
  }

  /** The leftmost position at or after `from` where JvscAt holds. */
  function FirstJvsc(s: string, from: nat): (r: Option<nat>)
    ensures r.Some? ==> from <= r.value < |s|
    decreases |s| - from
  {
    if from >= |s| then None
    else if JvscAt(s, from) then Some(from)
    else FirstJvsc(s, from + 1)
  }

  /** FirstJvsc finds the leftmost match at or after `from`, or reports that there is none. */
  lemma {:induction false} FirstJvscLeftmost(s: string, from: nat)
    ensures var r := FirstJvsc(s, from);
      (r.Some? ==> from <= r.value && JvscAt(s, r.value) && forall j :: from <= j < r.value ==> !JvscAt(s, j)) &&
      (r.None? ==> forall j :: from <= j ==> !JvscAt(s, j))
    decreases |s| - from
  {
    if from < |s| && !JvscAt(s, from) {
      FirstJvscLeftmost(s, from + 1);
    }
  }

  /** The first `re.sub` of `_normalize_session_value`: the leftmost match is
      removed; it runs to the final `.ipynb`, so nothing is left to match. */
  function StripJvsc(s: string): string
  {
    match FirstJvsc(s, 0)
    case None => s
    case Some(i) => s[..i] + Ipynb
  }

  /** StripJvsc removes exactly the leftmost match, or nothing when there is none. */
  lemma StripJvscLeftmost(s: string)
    ensures (forall i :: !JvscAt(s, i)) ==> StripJvsc(s) == s
    ensures forall i :: JvscAt(s, i) && (forall j :: 0 <= j < i ==> !JvscAt(s, j)) ==> StripJvsc(s) == s[..i] + Ipynb
  {
    FirstJvscLeftmost(s, 0);
    var r := FirstJvsc(s, 0);
    forall i | JvscAt(s, i) && (forall j :: 0 <= j < i ==> !JvscAt(s, j))
      ensures StripJvsc(s) == s[..i] + Ipynb
    {
      assert r.Some?;
      LeftmostUnique(s, i, r.value);
    }
  }

  /** Two leftmost matches are the same. */
  lemma LeftmostUnique(s: string, i: nat, k: nat)
    requires JvscAt(s, i) && forall j :: 0 <= j < i ==> !JvscAt(s, j)
    requires JvscAt(s, k) && forall j :: 0 <= j < k ==> !JvscAt(s, j)
    ensures i == k
  {
  }

  /** StripJvsc introduces no character. */
  lemma StripJvscChars(s: string)
    ensures forall c :: c in StripJvsc(s) ==> c in s
  {
    FirstJvscLeftmost(s, 0);
    match FirstJvsc(s, 0)
    case None =>
    case Some(i) =>
      assert forall c :: c in s[..i] ==> c in s;
      assert forall c :: c in Ipynb ==> c in s[|s| - 6..];
  }

  /** A character of the hex class `[0-9a-f]` under IGNORECASE. */
  predicate HexFold(c: char)
  {
    '0' <= c <= '9' || 'a' <= c <= 'f' || 'A' <= c <= 'F'
  }

  /** c matches the lower-case pattern letter `lower` under IGNORECASE; the
      `re` module also folds U+0130 and U+0131 onto `i`. */
  predicate FoldEq(c: char, lower: char)
  {
    LowerChar(c) == lower || (lower == 'i' && (c == '\U{130}' || c == '\U{131}'))
  }

  /** `\.ipynb` under IGNORECASE, at s[i..i + 6]. */
  predicate IpynbFoldAt(s: string, i: int)
    requires 0 <= i && i + 6 <= |s|
  {
    s[i] == '.' && FoldEq(s[i + 1], 'i') && FoldEq(s[i + 2], 'p') &&
    FoldEq(s[i + 3], 'y') && FoldEq(s[i + 4], 'n') && FoldEq(s[i + 5], 'b')
  }

  /** `[0-9a-f]{hi - lo}` under IGNORECASE, at s[lo..hi]. */
  predicate HexRun(s: string, lo: int, hi: int)
    requires 0 <= lo <= hi <= |s|
    decreases hi - lo
  {
    lo == hi || (HexFold(s[lo]) && HexRun(s, lo + 1, hi))
  }

  lemma {:induction false} HexRunMeans(s: string, lo: int, hi: int)
    requires 0 <= lo <= hi <= |s|
    ensures HexRun(s, lo, hi) <==> forall k :: lo <= k < hi ==> HexFold(s[k])
    decreases hi - lo
  {
    if lo < hi {
      HexRunMeans(s, lo + 1, hi);
    }
  }

  /** `-[0-9a-f]{8}(?:-[0-9a-f]{4}){3}-[0-9a-f]{12}` under IGNORECASE at
      s[i..i + 37]: the shape of an RFC 4122 UUID behind a dash. */
  predicate UuidShapeAt(s: string, i: int)
    requires 0 <= i && i + 37 <= |s|
  {
    s[i] == '-' && HexRun(s, i + 1, i + 9) &&
    s[i + 9] == '-' && HexRun(s, i + 10, i + 14) &&
    s[i + 14] == '-' && HexRun(s, i + 15, i + 19) &&
    s[i + 19] == '-' && HexRun(s, i + 20, i + 24) &&
    s[i + 24] == '-' && HexRun(s, i + 25, i + 37)
  }

  /** The UUID pattern with its `(?=\.ipynb$)` lookahead matches s at i. */
  predicate UuidAt(s: string, i: int)
  {
    0 <= i && i + 43 == |s| && UuidShapeAt(s, i) && IpynbFoldAt(s, i + 37)
  }

  /** The second `re.sub`: the match has a fixed length and must end six
      characters before the end, so it can only start 43 from the end. */
  function StripUuid(s: string): string
  {
    if |s| >= 43 && UuidAt(s, |s| - 43) then s[..|s| - 43] + s[|s| - 6..] else s
  }

  /** StripUuid removes the match wherever the pattern matches, or nothing. */
  lemma StripUuidMatch(s: string)
    ensures (forall i :: !UuidAt(s, i)) ==> StripUuid(s) == s
    ensures forall i :: UuidAt(s, i) ==> StripUuid(s) == s[..i] + s[i + 37..]
  {
  }

  /** StripUuid introduces no character. */
  lemma StripUuidChars(s: string)
    ensures forall c :: c in StripUuid(s) ==> c in s
  {
    if |s| >= 43 && UuidAt(s, |s| - 43) {
      var i := |s| - 43;
      assert forall c :: c in s[..i] ==> c in s;
      assert forall c :: c in s[i + 37..] ==> c in s;
    }
  }

  /** `_normalize_session_value`: backslashes to '/', then the editor's
      `-jvsc-…` suffix, then a UUID suffix, each only right before `.ipynb`. */
  function NormalizeSessionValue(value: string): string
  {
    StripUuid(StripJvsc(ReplaceChar(value, '\\', '/')))
  }

  /** Every backslash is gone after normalisation. */
  lemma NormalizeRemovesBackslashes(value: string)
    ensures '\\' !in NormalizeSessionValue(value)
  {
    var slashed := ReplaceChar(value, '\\', '/');
    ReplaceCharRemoves(value, '\\', '/');
    StripJvscChars(slashed);
    StripUuidChars(StripJvsc(slashed));
  }

  /** What normalisation does, stage by stage: the leftmost `-jvsc-` match
      goes, then a UUID match; a value with neither suffix only has its
      backslashes rewritten. */
  lemma NormalizeSessionValueStages(value: string)
    ensures var slashed := ReplaceChar(value, '\\', '/');
      var stripped := StripJvsc(slashed);
      var r := NormalizeSessionValue(value);
      ((forall i :: !JvscAt(slashed, i)) ==> stripped == slashed) &&
      (forall i :: JvscAt(slashed, i) && (forall j :: 0 <= j < i ==> !JvscAt(slashed, j)) ==> stripped == slashed[..i] + Ipynb) &&
      ((forall i :: !UuidAt(stripped, i)) ==> r == stripped) &&
      (forall i :: UuidAt(stripped, i) ==> r == stripped[..i] + stripped[i + 37..])
  {
    var slashed := ReplaceChar(value, '\\', '/');
    StripJvscLeftmost(slashed);
    StripUuidMatch(StripJvsc(slashed));
  }

  /** A value with neither suffix only has its backslashes rewritten. */
  lemma NormalizeWithoutSuffix(value: string)
    requires forall i :: !JvscAt(ReplaceChar(value, '\\', '/'), i)
    requires forall i :: !UuidAt(ReplaceChar(value, '\\', '/'), i)
    ensures NormalizeSessionValue(value) == ReplaceChar(value, '\\', '/')
  {
    NormalizeSessionValueStages(value);
  }

  /** The marker, a non-empty dot-free tag and `.ipynb` after t match at |t|. */
  lemma JvscAfter(t: string, tag: string)
    requires tag != "" && '.' !in tag
    ensures JvscAt(t + Jvsc + tag + Ipynb, |t|)
  {
    var s := t + Jvsc + tag + Ipynb;
    var i := |t|;
    assert s[|s| - 6..] == Ipynb;
    assert s[i..i + 6] == Jvsc;
    assert forall k :: i + 6 <= k < |s| - 6 ==> s[k] == tag[k - i - 6];
    DotFreeMeans(s, i + 6, |s| - 6);
  }

  /** A `-jvsc-` marker starts at position j of t followed by a dash. */
  predicate MarkerAt(t: string, j: int)
  {
    0 <= j && j + 6 <= |t| + 1 && (t + "-")[j..j + 6] == Jvsc
  }

  /** No `-jvsc-` marker starts inside t, counting a dash that follows t:
      then no match of the editor's pattern can start before the end of t. */
  predicate NoMarkerIn(t: string)
  {
    forall j :: 0 <= j < |t| ==> !MarkerAt(t, j)
  }

  /** A dash-free t holds no marker. */
  lemma DashFreeNoMarker(t: string)
    requires '-' !in t
    ensures NoMarkerIn(t)
  {
    forall j | 0 <= j < |t| ensures !MarkerAt(t, j) {
      if j + 6 <= |t| + 1 {
        assert (t + "-")[j..j + 6][0] == t[j];
      }
    }
  }

  /** A t where no dash is followed by a `j` holds no marker. */
  lemma NoDashJNoMarker(t: string)
    requires forall j :: 0 <= j < |t| - 1 && t[j] == '-' ==> t[j + 1] != 'j'
    ensures NoMarkerIn(t)
  {
    forall j | 0 <= j < |t| ensures !MarkerAt(t, j) {
      if j + 6 <= |t| + 1 {
        var w := (t + "-")[j..j + 6];
        assert w[0] == t[j] && w[1] == t[j + 1];
      }
    }
  }

  /** Rewriting backslashes neither makes nor breaks a marker. */
  lemma SlashesKeepNoMarker(t: string)
    requires NoMarkerIn(t)
    ensures NoMarkerIn(ReplaceChar(t, '\\', '/'))
  {
    var u := ReplaceChar(t, '\\', '/');
    ReplaceCharAt(t, '\\', '/');
    forall j | 0 <= j < |u| ensures !MarkerAt(u, j) {
      if j + 6 <= |u| + 1 {
        var v, w := (t + "-")[j..j + 6], (u + "-")[j..j + 6];
        assert !MarkerAt(t, j);
        var k :| 0 <= k < 6 && v[k] != Jvsc[k];
        assert v[k] == (t + "-")[j + k] && w[k] == (u + "-")[j + k];
        assert w[k] != Jvsc[k];
      }
    }
  }

  /** Nothing matches at the positions of a marker-free t followed by a dash. */
  lemma NoJvscBefore(t: string, rest: string)
    requires NoMarkerIn(t) && rest != [] && rest[0] == '-'
    ensures forall j :: 0 <= j < |t| ==> !JvscAt(t + rest, j)
  {
    var s := t + rest;
    forall j | 0 <= j < |t| ensures !JvscAt(s, j) {
      if j + 6 <= |s| {
        NoJvscAt(t, rest, j);
      }
    }
  }

  /** The six characters at j < |t| of t + rest are not the marker. */
  lemma NoJvscAt(t: string, rest: string, j: int)
    requires NoMarkerIn(t) && rest != [] && rest[0] == '-'
    requires 0 <= j < |t| && j + 6 <= |t| + |rest|
    ensures (t + rest)[j..j + 6] != Jvsc
  {
    var s := t + rest;
    if j + 6 <= |t| + 1 {
      assert !MarkerAt(t, j);
      var w := (t + "-")[j..j + 6];
      forall k | 0 <= k < 6 ensures s[j + k] == w[k] {
        if j + k < |t| { assert s[j + k] == t[j + k]; } else { assert s[j + k] == rest[0]; }
      }
      assert s[j..j + 6] == w;
    } else {
      assert s[j..j + 6][|t| - j] == rest[0];
    }
  }

  /** The `-jvsc-` stage on a marker-free head, the marker, a tag and `.ipynb`. */
  lemma StripJvscDrops(t: string, tag: string)
    requires NoMarkerIn(t)
    requires tag != "" && '.' !in tag
    ensures StripJvsc(t + Jvsc + tag + Ipynb) == t + Ipynb
  {
    var s := t + Jvsc + tag + Ipynb;
    JvscAfter(t, tag);
    JvscRegroup(t, tag);
    NoJvscBefore(t, Jvsc + tag + Ipynb);
    StripJvscLeftmost(s);
    assert s[..|t|] == t;
  }

  /** The editor's suffix goes: a stem in which no `-jvsc-` marker starts,
      the marker, a non-empty dot-free tag and `.ipynb` normalise to the stem
      (with its backslashes rewritten) and `.ipynb`, which the UUID stage
      then sees; it leaves them alone unless the stem ends in a UUID. */
  lemma NormalizeDropsJvsc(stem: string, tag: string)
    requires NoMarkerIn(stem)
    requires tag != "" && '.' !in tag
    ensures var t := ReplaceChar(stem, '\\', '/');
      NormalizeSessionValue(stem + Jvsc + tag + Ipynb) == StripUuid(t + Ipynb) &&
      ((forall i :: !UuidAt(t + Ipynb, i)) ==> NormalizeSessionValue(stem + Jvsc + tag + Ipynb) == t + Ipynb)
  {
    var t := ReplaceChar(stem, '\\', '/');
    var tag' := ReplaceChar(tag, '\\', '/');
    SlashesAroundJvsc(stem, tag);
    SlashesKeepNoMarker(stem);
    SlashesKeepTag(tag);
    StripJvscDrops(t, tag');
    StripUuidMatch(t + Ipynb);
    NormalizeStages(stem + Jvsc + tag + Ipynb, t + Jvsc + tag' + Ipynb, t + Ipynb, StripUuid(t + Ipynb));
  }

  /** Normalisation is the composition of its three stages. */
  lemma NormalizeStages(value: string, slashed: string, stripped: string, r: string)
    requires ReplaceChar(value, '\\', '/') == slashed
    requires StripJvsc(slashed) == stripped && StripUuid(stripped) == r
    ensures NormalizeSessionValue(value) == r
  {
  }

  /** The backslash stage on a value whose only backslashes are in its head t. */
  lemma SlashesInHead(t: string, rest: string)
    requires '\\' !in rest
    ensures ReplaceChar(t + rest, '\\', '/') == ReplaceChar(t, '\\', '/') + rest
  {
    ReplaceCharAppend(t, rest, '\\', '/');
    ReplaceCharAbsent(rest, '\\', '/');
  }

  /** The backslash stage works on the stem and the tag; the marker and `.ipynb` hold none. */
  lemma SlashesAroundJvsc(stem: string, tag: string)
    ensures ReplaceChar(stem + Jvsc + tag + Ipynb, '\\', '/') ==
      ReplaceChar(stem, '\\', '/') + Jvsc + ReplaceChar(tag, '\\', '/') + Ipynb
  {
    ReplaceCharAppend(stem + Jvsc + tag, Ipynb, '\\', '/');
    ReplaceCharAppend(stem + Jvsc, tag, '\\', '/');
    ReplaceCharAppend(stem, Jvsc, '\\', '/');
    ReplaceCharAbsent(Jvsc, '\\', '/');
    ReplaceCharAbsent(Ipynb, '\\', '/');
  }

  /** A non-empty dot-free tag stays so when its backslashes are rewritten. */
  lemma SlashesKeepTag(tag: string)
    requires tag != "" && '.' !in tag
    ensures ReplaceChar(tag, '\\', '/') != "" && '.' !in ReplaceChar(tag, '\\', '/')
  {
    ReplaceCharAt(tag, '\\', '/');
  }

  lemma JvscRegroup(t: string, tag: string)
    ensures t + Jvsc + tag + Ipynb == t + (Jvsc + tag + Ipynb)
  {
  }

  /** Every character of a UUID match is a dash or a hex digit. */
  lemma UuidChars(s: string, i: int)
    requires 0 <= i && i + 37 <= |s| && UuidShapeAt(s, i)
    ensures forall k :: i <= k < i + 37 ==> s[k] == '-' || HexFold(s[k])
  {
    HexRunMeans(s, i + 1, i + 9);
    HexRunMeans(s, i + 10, i + 14);
    HexRunMeans(s, i + 15, i + 19);
    HexRunMeans(s, i + 20, i + 24);
    HexRunMeans(s, i + 25, i + 37);
  }

  /** HexRun depends only on the characters it covers. */
  lemma {:induction false} HexRunShift(s: string, lo: int, hi: int, t: string, d: int)
    requires 0 <= lo <= hi <= |s| && 0 <= lo + d && hi + d <= |t|
    requires forall k :: lo <= k < hi ==> t[k + d] == s[k]
    ensures HexRun(s, lo, hi) == HexRun(t, lo + d, hi + d)
    decreases hi - lo
  {
    if lo < hi {
      HexRunShift(s, lo + 1, hi, t, d);
    }
  }

  /** A UUID match survives being placed after a head t. */
  lemma UuidShapeShift(uuid: string, t: string, rest: string)
    requires |uuid| == 37 && UuidShapeAt(uuid, 0)
    ensures UuidShapeAt(t + uuid + rest, |t|)
  {
    var s := t + uuid + rest;
    var d := |t|;
    assert forall k :: 0 <= k < 37 ==> s[k + d] == uuid[k];
    HexRunShift(uuid, 1, 9, s, d);
    HexRunShift(uuid, 10, 14, s, d);
    HexRunShift(uuid, 15, 19, s, d);
    HexRunShift(uuid, 20, 24, s, d);
    HexRunShift(uuid, 25, 37, s, d);
  }

  /** No `-jvsc-` match in a marker-free head, a UUID and a six-character extension. */
  lemma StripJvscKeepsUuid(t: string, uuid: string, ext: string)
    requires NoMarkerIn(t)
    requires |uuid| == 37 && UuidShapeAt(uuid, 0) && |ext| == 6
    ensures StripJvsc(t + uuid + ext) == t + uuid + ext
  {
    UuidChars(uuid, 0);
    var s := t + uuid + ext;
    UuidRegroup(t, uuid, ext);
    NoJvscBefore(t, uuid + ext);
    forall j ensures !JvscAt(s, j) {
      if |t| <= j && j + 6 < |s| - 6 {
        assert s[j..j + 6][1] == s[j + 1] == uuid[j + 1 - |t|];
      }
    }
    StripJvscLeftmost(s);
  }

  /** The UUID stage on a head, a UUID and an `.ipynb` in any case. */
  lemma StripUuidDrops(t: string, uuid: string, ext: string)
    requires |uuid| == 37 && UuidShapeAt(uuid, 0)
    requires |ext| == 6 && IpynbFoldAt(ext, 0)
    ensures StripUuid(t + uuid + ext) == t + ext
  {
    var s := t + uuid + ext;
    var i := |t|;
    assert UuidAt(s, i) by {
      UuidShapeShift(uuid, t, ext);
      assert forall k :: 0 <= k < 6 ==> s[i + 37 + k] == ext[k];
    }
    assert s[..i] + s[|s| - 6..] == t + ext;
  }

  /** A UUID suffix goes: a stem in which no `-jvsc-` marker starts, a
      dash-led UUID and a `.ipynb` in any case normalise to the stem (with
      its backslashes rewritten) and that `.ipynb`. */
  lemma NormalizeDropsUuid(stem: string, uuid: string, ext: string)
    requires NoMarkerIn(stem)
    requires |uuid| == 37 && UuidShapeAt(uuid, 0)
    requires |ext| == 6 && IpynbFoldAt(ext, 0)
    ensures NormalizeSessionValue(stem + uuid + ext) == ReplaceChar(stem, '\\', '/') + ext
  {
    var rest := uuid + ext;
    var t := ReplaceChar(stem, '\\', '/');
    UuidTailNoBackslash(uuid, ext);
    UuidRegroup(stem, uuid, ext);
    SlashesInHead(stem, rest);
    SlashesKeepNoMarker(stem);
    UuidRegroup(t, uuid, ext);
    StripJvscKeepsUuid(t, uuid, ext);
    StripUuidDrops(t, uuid, ext);
    NormalizeStages(stem + rest, t + rest, t + rest, t + ext);
  }

  /** Neither a UUID match nor a case-folded `.ipynb` holds a backslash. */
  lemma UuidTailNoBackslash(uuid: string, ext: string)
    requires |uuid| == 37 && UuidShapeAt(uuid, 0)
    requires |ext| == 6 && IpynbFoldAt(ext, 0)
    ensures '\\' !in uuid + ext
  {
    UuidChars(uuid, 0);
    var rest := uuid + ext;
    forall k | 0 <= k < |rest| ensures rest[k] != '\\' {
      if k < 37 { assert rest[k] == uuid[k]; } else { assert rest[k] == ext[k - 37]; }
    }
  }

  lemma UuidRegroup(t: string, uuid: string, ext: string)
    ensures t + uuid + ext == t + (uuid + ext)
  {
  }

  /** Example: the editor's suffix goes from `notebook-jvsc-abc123.ipynb`. */
  lemma NormalizeJvscExample(stem: string, tag: string)
    requires stem == "notebook" && tag == "abc123"
    ensures NormalizeSessionValue(stem + "-jvsc-" + tag + ".ipynb") == "notebook.ipynb"
  {
    assert '-' !in stem && '\\' !in stem && '.' !in tag;
    DashFreeNoMarker(stem);
    NormalizeDropsJvsc(stem, tag);
    ReplaceCharAbsent(stem, '\\', '/');
  }

  /** Example: a dashed name keeps its dashes, `my-notebook-jvsc-1a2b.ipynb`. */
  lemma NormalizeDashedExample(stem: string, tag: string)
    requires stem == "my-notebook" && tag == "1a2b"
    ensures NormalizeSessionValue(stem + "-jvsc-" + tag + ".ipynb") == "my-notebook.ipynb"
  {
    assert '\\' !in stem && '.' !in tag;
    MyNotebookNoMarker(stem);
    ReplaceCharAbsent(stem, '\\', '/');
    NormalizeDropsJvsc(stem, tag);
    ShortKeepsUuid(stem + Ipynb);
  }

  /** A value shorter than a UUID and `.ipynb` has no UUID to lose. */
  lemma ShortKeepsUuid(s: string)
    requires |s| < 43
    ensures StripUuid(s) == s
  {
  }

  lemma MyNotebookNoMarker(stem: string)
    requires stem == "my-notebook"
    ensures NoMarkerIn(stem)
  {
    assert forall j :: 0 <= j < |stem| - 1 && stem[j] == '-' ==> j == 2;
    NoDashJNoMarker(stem);
  }

  /** Example: the same behind a Windows-style directory, `work\report-jvsc-1a2b.ipynb`. */
  lemma NormalizeWindowsExample(stem: string, tag: string)
    requires stem == "work\\report" && tag == "1a2b"
    ensures NormalizeSessionValue(stem + "-jvsc-" + tag + ".ipynb") == "work/report.ipynb"
  {
    assert '-' !in stem && '.' !in tag;
    DashFreeNoMarker(stem);
    NormalizeDropsJvsc(stem, tag);
    WorkReportSlashed(stem);
  }

  lemma WorkReportSlashed(stem: string)
    requires stem == "work\\report"
    ensures ReplaceChar(stem, '\\', '/') + ".ipynb" == "work/report.ipynb"
  {
    ReplaceCharAt(stem, '\\', '/');
    assert ReplaceChar(stem, '\\', '/') == "work/report";
  }

  /** A value without either suffix is left alone. */
  lemma NormalizePlainExample()
    ensures NormalizeSessionValue("notes.txt") == "notes.txt"
  {
    var e := "notes.txt";
    ReplaceCharAbsent(e, '\\', '/');
    StripJvscLeftmost(e);
  }

  /** One of the four forms of a non-empty string field. */
  predicate FormOf(f: Field, v: string)
  {
    NonEmptyStr(f) &&
    (v == f.s || v == Basename(f.s) || v == NormalizeSessionValue(f.s) || v == Basename(NormalizeSessionValue(f.s)))
  }

  /** The four candidates `_session_strings` draws from one string value. */
  function Forms(value: string): (r: seq<string>)
    ensures |r| == 4 && r[0] == value
  {
    var normalized := NormalizeSessionValue(value);
    [value, Basename(value), normalized, Basename(normalized)]
  }

  /** The strings one field contributes: its non-empty forms. */
  function FieldStrings(f: Field): (r: set<string>)
    ensures forall v :: v in r <==> v != "" && FormOf(f, v)
    ensures NonEmptyStr(f) ==> f.s in r
    ensures !NonEmptyStr(f) ==> r == {}
  {
    if NonEmptyStr(f) then set v | v in Forms(f.s) && v != "" else {}
  }

  /** The matchable strings of a session (what `_session_strings` builds). */
  function Matchable(session: Session): (r: set<string>)
    ensures "" !in r
    ensures forall v :: v in r <==> v != "" && (FormOf(session.path, v) || FormOf(session.name, v))
    ensures r == {} <==> !NonEmptyStr(session.path) && !NonEmptyStr(session.name)
    ensures NonEmptyStr(session.path) ==> session.path.s in r
    ensures NonEmptyStr(session.name) ==> session.name.s in r
  {
    MatchableUnion(session.path, session.name);
    FieldStrings(session.path) + FieldStrings(session.name)
  }

  /** The union of the strings of two fields. */
  lemma MatchableUnion(path: Field, name: Field)
    ensures var r := FieldStrings(path) + FieldStrings(name);
      "" !in r &&
      (forall v :: v in r <==> v != "" && (FormOf(path, v) || FormOf(name, v))) &&
      (r == {} <==> !NonEmptyStr(path) && !NonEmptyStr(name)) &&
      (NonEmptyStr(path) ==> path.s in r) &&
      (NonEmptyStr(name) ==> name.s in r)
  {
    UnionMembers(FieldStrings(path), FieldStrings(name));
    UnionEmpty(path, name);
  }

  lemma UnionMembers(a: set<string>, b: set<string>)
    ensures forall v :: v in a + b <==> v in a || v in b
  {
  }

  lemma UnionEmpty(path: Field, name: Field)
    ensures FieldStrings(path) + FieldStrings(name) == {} <==> !NonEmptyStr(path) && !NonEmptyStr(name)
  {
    var a, b := FieldStrings(path), FieldStrings(name);
    if NonEmptyStr(path) { assert path.s in a + b; }
    if NonEmptyStr(name) { assert name.s in a + b; }
  }

  /** The inner loop of `_session_strings`: add every non-empty candidate. */
  method AddNonEmpty(values: set<string>, candidates: seq<string>) returns (r: set<string>)
    ensures r == values + (set v | v in candidates && v != "")
  {
    r := values;
    for c := 0 to |candidates|
      invariant r == values + (set v | v in candidates[..c] && v != "")
    {
      if candidates[c] != "" {
        r := r + {candidates[c]};
      }
      assert candidates[..c + 1] == candidates[..c] + [candidates[c]];
    }
    assert candidates[..|candidates|] == candidates;
  }

  /** `_session_strings`: a set filled from the `path` and `name` keys. */
  method SessionStrings(session: Session) returns (values: set<string>)
    ensures values == Matchable(session)
  {
    values := {};
    var fields := [session.path, session.name];
    for k := 0 to 2
      invariant values == (if k > 0 then FieldStrings(session.path) else {}) + (if k > 1 then FieldStrings(session.name) else {})
    {
      var raw := fields[k];
      if NonEmptyStr(raw) {
        values := AddNonEmpty(values, Forms(raw.s));
      }
    }
  }

  /** `_notebook_like_match`: compare basenames split into stem and
      extension; an empty query stem never matches, a query extension must
      equal the candidate's ignoring case, and the candidate stem must be
      the query stem or start with the query stem and a dash. */
  function NotebookLikeMatch(query: string, candidate: string): bool
  {
    var (queryStem, queryExt) := SplitExt(Basename(query));
    var (candidateStem, candidateExt) := SplitExt(Basename(candidate));
    if queryStem == "" then false
    else if queryExt != "" && Lower(queryExt) != Lower(candidateExt) then false
    else candidateStem == queryStem || StartsWith(candidateStem, queryStem + "-")
  }

  /** The decision restated over the stems and extensions, both directions. */
  lemma NotebookLikeMatchMeans(query: string, candidate: string)
    ensures var q := SplitExt(Basename(query));
      var c := SplitExt(Basename(candidate));
      NotebookLikeMatch(query, candidate) <==>
        q.0 != "" && (q.1 == "" || Lower(q.1) == Lower(c.1)) &&
        (c.0 == q.0 || StartsWith(c.0, q.0 + "-"))
  {
  }

  /** Only the basenames take part: directories never matter. */
  lemma NotebookLikeMatchIgnoresDirectories(query: string, candidate: string, dir1: string, dir2: string)
    ensures NotebookLikeMatch(dir1 + "/" + query, dir2 + "/" + candidate) == NotebookLikeMatch(query, candidate)
  {
    BasenameUnderDirectory(dir1, query);
    BasenameUnderDirectory(dir2, candidate);
  }

  /** A match means the candidate's basename starts with the query stem. */
  lemma NotebookLikeMatchPrefix(query: string, candidate: string)
    requires NotebookLikeMatch(query, candidate)
    ensures StartsWith(Basename(candidate), SplitExt(Basename(query)).0)
  {
    NotebookLikeMatchMeans(query, candidate);
    var q := SplitExt(Basename(query)).0;
    var b := Basename(candidate);
    DashedPrefix(SplitExt(b).0, q);
    StemPrefix(b, q);
  }

  /** The stem itself, or the stem and a dash, start with the stem. */
  lemma DashedPrefix(c: string, q: string)
    requires c == q || StartsWith(c, q + "-")
    ensures StartsWith(c, q)
  {
    if c != q {
      assert c[..|q|] == (q + "-")[..|q|];
    }
  }

  /** A prefix of the stem is a prefix of the whole name. */
  lemma StemPrefix(b: string, q: string)
    requires StartsWith(SplitExt(b).0, q)
    ensures StartsWith(b, q)
  {
    var c := SplitExt(b);
    assert b == c.0 + c.1;
    assert |q| <= |c.0| && c.0[..|q|] == q;
    assert (c.0 + c.1)[..|q|] == c.0[..|q|];
  }

  /** For two '/'-free names the decision is made on their splits. */
  lemma NotebookLikeMatchNames(query: string, candidate: string)
    requires '/' !in query && '/' !in candidate
    ensures var q := SplitExt(query);
      var c := SplitExt(candidate);
      NotebookLikeMatch(query, candidate) <==>
        q.0 != "" && (q.1 == "" || Lower(q.1) == Lower(c.1)) &&
        (c.0 == q.0 || StartsWith(c.0, q.0 + "-"))
  {
    BasenameUnique(query, query);
    BasenameUnique(candidate, candidate);
    NotebookLikeMatchMeans(query, candidate);
  }

  /** `report.ipynb` splits into `report` and `.ipynb`. */
  lemma SplitReport(p: string)
    requires p == "report.ipynb"
    ensures '/' !in p && SplitExt(p) == ("report", ".ipynb")
  {
    SplitExtAt(p, 6);
    assert p[..6] == "report" && p[6..] == ".ipynb";
  }

  /** Example: a notebook matches itself. */
  lemma NotebookLikeMatchSame(query: string)
    requires query == "report.ipynb"
    ensures NotebookLikeMatch(query, query)
  {
    SplitReport(query);
    NotebookLikeMatchNames(query, query);
  }

  /** `.IPYNB` and `.ipynb` agree once lowered. */
  lemma LowerIpynb()
    ensures Lower(".IPYNB") == Lower(".ipynb")
  {
    LowerAt(".IPYNB");
    LowerAt(".ipynb");
  }

  /** `report-1.IPYNB` splits into `report-1` and `.IPYNB`. */
  lemma SplitReportDashed(p: string)
    requires p == "report-1.IPYNB"
    ensures '/' !in p && SplitExt(p) == ("report-1", ".IPYNB")
  {
    SplitExtAt(p, 8);
    assert p[..8] == "report-1" && p[8..] == ".IPYNB";
  }

  /** Example: a dash continues the stem, and the
      extension may differ in case. */
  lemma NotebookLikeMatchDashed(query: string, candidate: string)
    requires query == "report.ipynb" && candidate == "report-1.IPYNB"
    ensures NotebookLikeMatch(query, candidate)
  {
    SplitReport(query);
    SplitReportDashed(candidate);
    NotebookLikeMatchNames(query, candidate);
    LowerIpynb();
    var stem := "report-1";
    assert stem[..7] == "report" + "-";
  }

  /** The candidate's directory never matters. */
  lemma NotebookLikeMatchCandidateDirectory(query: string, candidate: string, dir: string)
    ensures NotebookLikeMatch(query, dir + "/" + candidate) == NotebookLikeMatch(query, candidate)
  {
    BasenameUnderDirectory(dir, candidate);
  }

  /** Example: another letter does not continue the stem. */
  lemma NotebookLikeMatchLonger(query: string, candidate: string)
    requires query == "report.ipynb" && candidate == "reportx.ipynb"
    ensures !NotebookLikeMatch(query, candidate)
  {
    SplitReport(query);
    SplitReportx(candidate);
    NotebookLikeMatchNames(query, candidate);
    ReportxNotDashed("reportx", "report");
  }

  lemma SplitReportx(p: string)
    requires p == "reportx.ipynb"
    ensures '/' !in p && SplitExt(p) == ("reportx", ".ipynb")
  {
    SplitExtAt(p, 7);
    assert p[..7] == "reportx" && p[7..] == ".ipynb";
  }

  lemma ReportxNotDashed(c: string, q: string)
    requires c == "reportx" && q == "report"
    ensures c != q && !StartsWith(c, q + "-")
  {
    assert c[6] != (q + "-")[6];
  }

  /** Example: the query's extension must agree. */
  lemma NotebookLikeMatchOtherExtension(query: string, candidate: string)
    requires query == "report.ipynb" && candidate == "report.py"
    ensures !NotebookLikeMatch(query, candidate)
  {
    SplitReport(query);
    SplitExtAt(candidate, 6);
    assert candidate[..6] == "report" && candidate[6..] == ".py";
    NotebookLikeMatchNames(query, candidate);
    LowerAt(".py");
    LowerAt(".ipynb");
  }

  /** Example: a query without extension accepts any. */
  lemma NotebookLikeMatchNoExtension(query: string, candidate: string)
    requires query == "report" && candidate == "report.py"
    ensures NotebookLikeMatch(query, candidate)
  {
    SplitExtNoDot(query);
    SplitExtAt(candidate, 6);
    assert candidate[..6] == "report" && candidate[6..] == ".py";
    NotebookLikeMatchNames(query, candidate);
  }

  /** Example: an empty query matches nothing. */
  lemma NotebookLikeMatchEmpty(candidate: string)
    ensures !NotebookLikeMatch("", candidate)
  {
    SplitExtNoDot("");
  }

  /** A plain reference matches a session (`_session_matches_substring`). */
  predicate MatchesSubstring(session: Session, reference: string)
  {
    exists v :: v in Matchable(session) && (IsSubstring(reference, v) || NotebookLikeMatch(reference, v))
  }

  /** `_session_matches_substring`: a loop over the set with early return. */
  method SessionMatchesSubstring(session: Session, reference: string) returns (found: bool)
    ensures found <==> exists v :: v in Matchable(session) && (IsSubstring(reference, v) || NotebookLikeMatch(reference, v))
  {
    var values := SessionStrings(session);
    var rest := values;
    while rest != {}
      invariant rest <= values
      invariant forall v :: v in values - rest ==> !IsSubstring(reference, v) && !NotebookLikeMatch(reference, v)
      decreases |rest|
    {
      var v :| v in rest;
      if IsSubstring(reference, v) {
        return true;
      }
      if NotebookLikeMatch(reference, v) {
        return true;
      }
      rest := rest - {v};
    }
    return false;
  }

  /** The `re` module as the script uses it: `compileError(p)` is None when
      `re.compile(p)` succeeds and the error text otherwise; `search(p, s)`
      is whether the compiled pattern finds a match anywhere in s. */
  datatype Regex = Regex(compileError: string -> Option<string>, search: (string, string) -> bool)

  /** `_session_matches_regex`. */
  method SessionMatchesRegex(session: Session, regex: Regex, pattern: string) returns (found: bool)
    ensures found <==> exists v :: v in Matchable(session) && regex.search(pattern, v)
  {
    var values := SessionStrings(session);
    var rest := values;
    while rest != {}
      invariant rest <= values
      invariant forall v :: v in values - rest ==> !regex.search(pattern, v)
      decreases |rest|
    {
      var v :| v in rest;
      if regex.search(pattern, v) {
        return true;
      }
      rest := rest - {v};
    }
    return false;
  }
}

=== FILE: text.dfy ===
/** The handful of Python string operations the script relies on, with the
    semantics of CPython's `str` methods and `posixpath` functions. */
module Text {
  import opened Seqs

  /** Python truthiness of an optional string: present and non-empty. */
  predicate Truthy(o: Option<string>)
  {
    o.Some? && o.value != ""
  }

  /** `needle in hay` for two strings. */
  predicate IsSubstring(needle: string, hay: string)
  {
    exists i :: 0 <= i <= |hay| - |needle| && OccursAt(needle, hay, i)
  }

  /** needle occurs in hay starting at position i. */
  predicate OccursAt(needle: string, hay: string, i: int)
    requires 0 <= i <= |hay| - |needle|
  {
    hay[i..i + |needle|] == needle
  }

  /** `s.startswith(prefix)`. */
  predicate StartsWith(s: string, prefix: string)
  {
    |prefix| <= |s| && s[..|prefix|] == prefix
  }

  /** `s.rfind(c, 0, n)`: the last position of c in s[..n], or -1. */
  function LastIndexOf(s: string, c: char, n: nat): (r: int)
    requires n <= |s|
    ensures -1 <= r < n
    ensures r >= 0 ==> s[r] == c
    ensures forall i :: r < i < n ==> s[i] != c
  {
    if n == 0 then -1
    else if s[n - 1] == c then n - 1
    else LastIndexOf(s, c, n - 1)
  }

  /** `os.path.basename`: the text after the last '/'. */
  function Basename(p: string): (r: string)
    ensures '/' !in r
    ensures |r| <= |p| && p[|p| - |r|..] == r
    ensures |r| == |p| || p[|p| - |r| - 1] == '/'
  {
    var k := LastIndexOf(p, '/', |p|);
    var r := p[k + 1..];
    assert forall i :: 0 <= i < |r| ==> r[i] == p[k + 1 + i];
    r
  }

  /** The basename is the only '/'-free suffix that starts the string or follows a '/'. */
  lemma BasenameUnique(p: string, r: string)
    requires '/' !in r && |r| <= |p| && p[|p| - |r|..] == r
    requires |r| == |p| || p[|p| - |r| - 1] == '/'
    ensures r == Basename(p)
  {
    var b := Basename(p);
    assert |b| == |r|;
  }

  /** A directory prefix does not change the basename. */
  lemma BasenameUnderDirectory(dir: string, name: string)
    ensures Basename(dir + "/" + name) == Basename(name)
  {
    var p := dir + "/" + name;
    var b := Basename(name);
    assert p[|p| - |name|..] == name;
    assert p[|p| - |b|..] == b by {
      assert p[|p| - |b|..] == name[|name| - |b|..];
    }
    if |b| == |name| {
      assert p[|p| - |b| - 1] == '/';
    } else {
      assert p[|p| - |b| - 1] == name[|name| - |b| - 1];
    }
    BasenameUnique(p, b);
  }

  /** Some character of p[lo..hi] is not a dot. */
  predicate HasNonDot(p: string, lo: int, hi: int)
    requires 0 <= lo <= hi <= |p|
  {
    exists j :: lo <= j < hi && p[j] != '.'
  }

  /** `posixpath.splitext`: split before the last dot of the final path
      component, unless only dots precede that dot in the component. */
  function SplitExt(p: string): (r: (string, string))
    ensures r.0 + r.1 == p
    ensures r.1 != "" ==> r.1[0] == '.' && forall k :: 1 <= k < |r.1| ==> r.1[k] != '.' && r.1[k] != '/'
  {
    var sep := LastIndexOf(p, '/', |p|);
    var dot := LastIndexOf(p, '.', |p|);
    if dot > sep && HasNonDot(p, sep + 1, dot) then
      var r := (p[..dot], p[dot..]);
      assert forall k :: 1 <= k < |r.1| ==> r.1[k] == p[dot + k];
      r
    else
      (p, "")
  }

  /** There is an extension exactly when the final component has a dot with
      a non-dot character somewhere before it. */
  lemma SplitExtHasExtension(p: string)
    ensures SplitExt(p).1 != "" <==> exists i, j :: LastIndexOf(p, '/', |p|) < j < i < |p| && p[i] == '.' && p[j] != '.'
  {
    var sep := LastIndexOf(p, '/', |p|);
    var dot := LastIndexOf(p, '.', |p|);
    assert forall i :: sep < i < |p| && p[i] == '.' ==> i <= dot;
  }

  /** The last occurrence of c in s[..n] is at k. */
  lemma LastIndexOfAt(s: string, c: char, n: nat, k: nat)
    requires k < n <= |s| && s[k] == c
    requires forall i :: k < i < n ==> s[i] != c
    ensures LastIndexOf(s, c, n) == k
  {
  }

  /** c does not occur in s[..n]. */
  lemma LastIndexOfAbsent(s: string, c: char, n: nat)
    requires n <= |s| && forall i :: 0 <= i < n ==> s[i] != c
    ensures LastIndexOf(s, c, n) == -1
  {
  }

  /** The split of a '/'-free name that does not start with a dot and whose last dot is at `dot`. */
  lemma SplitExtAt(p: string, dot: nat)
    requires '/' !in p && 0 < dot < |p| && p[0] != '.' && p[dot] == '.'
    requires forall i :: dot < i < |p| ==> p[i] != '.'
    ensures SplitExt(p) == (p[..dot], p[dot..])
  {
    LastIndexOfAbsent(p, '/', |p|);
    LastIndexOfAt(p, '.', |p|, dot);
    assert HasNonDot(p, 0, dot);
  }

  /** A name without a dot has no extension. */
  lemma SplitExtNoDot(p: string)
    requires '.' !in p
    ensures SplitExt(p) == (p, "")
  {
    LastIndexOfAbsent(p, '.', |p|);
  }

  function LowerChar(c: char): char
  {
    if 'A' <= c <= 'Z' then (c as int + 32) as char else c
  }

  /** `s.lower()` on the ASCII range. */
  function Lower(s: string): string
  {
    if s == [] then [] else Lower(s[..|s| - 1]) + [LowerChar(s[|s| - 1])]
  }

  /** Every character is lowered on its own. */
  lemma {:induction false} LowerAt(s: string)
    ensures |Lower(s)| == |s| && forall i :: 0 <= i < |s| ==> Lower(s)[i] == LowerChar(s[i])
  {
    if s != [] {
      LowerAt(s[..|s| - 1]);
    }
  }

  /** `s.rstrip(c)` for a single character c: drop every trailing c. */
  function RStrip(s: string, c: char): (r: string)
    ensures |r| <= |s| && s[..|r|] == r
    ensures r == [] || r[|r| - 1] != c
    ensures forall i :: |r| <= i < |s| ==> s[i] == c
  {
    if |s| > 0 && s[|s| - 1] == c then RStrip(s[..|s| - 1], c) else s
  }

  /** `s.replace(from, to)` for single characters. */
  function ReplaceChar(s: string, from: char, to: char): string
  {
    if s == [] then [] else ReplaceChar(s[..|s| - 1], from, to) + [if s[|s| - 1] == from then to else s[|s| - 1]]
  }

  /** Every occurrence of `from` becomes `to`, and nothing else changes. */
  lemma {:induction false} ReplaceCharAt(s: string, from: char, to: char)
    ensures var r := ReplaceChar(s, from, to);
      |r| == |s| && forall i :: 0 <= i < |s| ==> r[i] == (if s[i] == from then to else s[i])
    decreases |s|
  {
    if s != [] {
      ReplaceCharAt(s[..|s| - 1], from, to);
    }
  }

  /** After the replacement, `from` is gone (when it differs from `to`). */
  lemma ReplaceCharRemoves(s: string, from: char, to: char)
    requires from != to
    ensures from !in ReplaceChar(s, from, to)
  {
    ReplaceCharAt(s, from, to);
  }

  /** A string without `from` is left as it is. */
  lemma ReplaceCharAbsent(s: string, from: char, to: char)
    requires from !in s
    ensures ReplaceChar(s, from, to) == s
  {
    ReplaceCharAt(s, from, to);
  }

  /** The replacement works piecewise. */
  lemma {:induction false} ReplaceCharAppend(a: string, b: string, from: char, to: char)
    ensures ReplaceChar(a + b, from, to) == ReplaceChar(a, from, to) + ReplaceChar(b, from, to)
  {
    ReplaceCharAt(a, from, to);
    ReplaceCharAt(b, from, to);
    ReplaceCharAt(a + b, from, to);
  }

  /** `sep.join(parts)`. */
  function Join(parts: seq<string>, sep: string): string
  {
    if |parts| == 0 then ""
    else if |parts| == 1 then parts[0]
    else parts[0] + sep + Join(parts[1..], sep)
  }
}

=== FILE: urls.dfy ===
/** URL construction: the normalised server base URL, the optional token
    query parameter, and the websocket URL of a kernel's channels endpoint
    (the `ws`/`wss` schemes of section 3 of RFC 6455). */
module Urls {
  import opened Seqs
  import opened Text

  /** A base URL whose trailing slashes are gone. */
  function NormalizeBaseUrl(baseUrl: string): (r: string)
    ensures r == [] || r[|r| - 1] != '/'
    ensures |r| <= |baseUrl| && baseUrl[..|r|] == r
    ensures forall i :: |r| <= i < |baseUrl| ==> baseUrl[i] == '/'
  {
    RStrip(baseUrl, '/')
  }

  lemma NormalizeBaseUrlIdempotent(baseUrl: string)
    ensures NormalizeBaseUrl(NormalizeBaseUrl(baseUrl)) == NormalizeBaseUrl(baseUrl)
  {
    var r := NormalizeBaseUrl(baseUrl);
    assert r == [] || r[|r| - 1] != '/';
  }

  /** Any number of trailing slashes normalise to the same base URL. */
  lemma {:induction false} NormalizeBaseUrlIgnoresTrailingSlashes(baseUrl: string, n: nat)
    ensures NormalizeBaseUrl(baseUrl + seq(n, _ => '/')) == NormalizeBaseUrl(baseUrl)
    decreases n
  {
    var s := baseUrl + seq(n, _ => '/');
    if n > 0 {
      assert s[..|s| - 1] == baseUrl + seq(n - 1, _ => '/');
      NormalizeBaseUrlIgnoresTrailingSlashes(baseUrl, n - 1);
    } else {
      assert s == baseUrl;
    }
  }

  /** The separator that appends one more query parameter to url. */
  function QuerySeparator(url: string): char
  {
    if '?' in url then '&' else '?'
  }

  /** `_add_token`: nothing to add for an absent or empty token; otherwise
      `token=<urlencoded token>` after `?`, or after `&` once the URL has a
      query. `quote` stands for urlencode's escaping of the value. */
  function AddToken(url: string, token: Option<string>, quote: string -> string): (r: string)
    ensures !Truthy(token) ==> r == url
    ensures Truthy(token) ==> |r| > |url| && r[..|url|] == url
    ensures Truthy(token) ==> r[|url|] == QuerySeparator(url) && r[|url| + 1..] == "token=" + quote(token.value)
    ensures Truthy(token) ==> (r[|url|] == '&' <==> '?' in url)
  {
    if !Truthy(token) then url
    else url + [QuerySeparator(url)] + "token=" + quote(token.value)
  }

  /** A URL as `urlparse` splits it; only these three parts are used.
      The scheme is lower case, as `urlparse` returns it. */
  datatype UrlParts = UrlParts(scheme: string, netloc: string, path: string)

  /** Plain http maps to `ws`, https to `wss`; any other scheme to `ws`. */
  function WsScheme(scheme: string): (r: string)
    ensures r == "wss" <==> scheme == "https"
    ensures r == "ws" <==> scheme != "https"
  {
    if scheme == "https" then "wss" else "ws"
  }

  /** The channels endpoint under the base path, whose trailing slashes are dropped. */
  function ChannelsPath(basePath: string, kernelId: string): string
  {
    RStrip(basePath, '/') + "/api/kernels/" + kernelId + "/channels"
  }

  /** `urlunparse` with empty params, query and fragment, for a scheme that
      takes a network location: `//` and the netloc go before the path, and
      a path that does not start with '/' gets one. */
  function Unparse(scheme: string, netloc: string, path: string): string
  {
    scheme + "://" + netloc + (if |path| > 0 && path[0] == '/' then path else "/" + path)
  }

  /** `_build_ws_url`. The query, params and fragment of the base URL are dropped. */
  function BuildWsUrl(base: UrlParts, kernelId: string, token: Option<string>, quote: string -> string): (r: string)
    ensures var head := WsScheme(base.scheme) + "://" + base.netloc;
      StartsWith(r, head) &&
      var rest := r[|head|..];
      var path := ChannelsPath(base.path, kernelId);
      var slashed := if path[0] == '/' then path else "/" + path;
      StartsWith(rest, slashed) &&
      rest[|slashed|..] == (if Truthy(token) then [QuerySeparator(head + slashed)] + "token=" + quote(token.value) else "")
  {
    var path := ChannelsPath(base.path, kernelId);
    var head := WsScheme(base.scheme) + "://" + base.netloc;
    var slashed := if path[0] == '/' then path else "/" + path;
    UnparseSplits(WsScheme(base.scheme), base.netloc, path);
    AddTokenShape(head, slashed, token, quote);
    AddToken(Unparse(WsScheme(base.scheme), base.netloc, path), token, quote)
  }

  /** The unparsed URL is the head, then the path led by a slash. */
  lemma UnparseSplits(scheme: string, netloc: string, path: string)
    ensures Unparse(scheme, netloc, path) == (scheme + "://" + netloc) + (if |path| > 0 && path[0] == '/' then path else "/" + path)
  {
  }

  /** Adding the token keeps the URL in front and appends only the query. */
  lemma AddTokenShape(head: string, slashed: string, token: Option<string>, quote: string -> string)
    ensures var r := AddToken(head + slashed, token, quote);
      StartsWith(r, head) && StartsWith(r[|head|..], slashed) &&
      r[|head|..][|slashed|..] == (if Truthy(token) then [QuerySeparator(head + slashed)] + "token=" + quote(token.value) else "")
  {
    var r := AddToken(head + slashed, token, quote);
    var tail := if Truthy(token) then [QuerySeparator(head + slashed)] + "token=" + quote(token.value) else "";
    assert r == head + slashed + tail;
    assert r[..|head|] == head;
    assert r[|head|..] == slashed + tail;
    assert (slashed + tail)[..|slashed|] == slashed;
    assert (slashed + tail)[|slashed|..] == tail;
  }

  /** Trailing slashes on the base path do not change the websocket URL. */
  lemma BuildWsUrlIgnoresTrailingSlashes(base: UrlParts, kernelId: string, token: Option<string>, quote: string -> string)
    ensures BuildWsUrl(base.(path := base.path + "/"), kernelId, token, quote) == BuildWsUrl(base, kernelId, token, quote)
  {
    var p := base.path + "/";
    assert p[..|p| - 1] == base.path;
  }

  /** With no '?' anywhere in its parts, the token starts the query with '?'. */
  lemma BuildWsUrlTokenStartsQuery(base: UrlParts, kernelId: string, token: Option<string>, quote: string -> string)
    requires Truthy(token)
    requires '?' !in base.netloc && '?' !in base.path && '?' !in kernelId
    ensures var url := Unparse(WsScheme(base.scheme), base.netloc, ChannelsPath(base.path, kernelId));
      BuildWsUrl(base, kernelId, token, quote) == url + "?token=" + quote(token.value)
  {
    var path := ChannelsPath(base.path, kernelId);
    ChannelsPathNoQuery(base.path, kernelId);
    var url := Unparse(WsScheme(base.scheme), base.netloc, path);
    UnparseNoQuery(WsScheme(base.scheme), base.netloc, path);
    BuildWsUrlIsAddToken(base, kernelId, token, quote);
    AddTokenStartsQuery(url, token, quote);
  }

  /** A token added to a URL without a query starts one with '?'. */
  lemma AddTokenStartsQuery(url: string, token: Option<string>, quote: string -> string)
    requires Truthy(token) && '?' !in url
    ensures AddToken(url, token, quote) == url + "?token=" + quote(token.value)
  {
    assert [QuerySeparator(url)] + "token=" == "?token=";
  }

  /** The websocket URL is the unparsed channels URL with the token added. */
  lemma BuildWsUrlIsAddToken(base: UrlParts, kernelId: string, token: Option<string>, quote: string -> string)
    ensures BuildWsUrl(base, kernelId, token, quote) ==
      AddToken(Unparse(WsScheme(base.scheme), base.netloc, ChannelsPath(base.path, kernelId)), token, quote)
  {
  }

  lemma ChannelsPathNoQuery(basePath: string, kernelId: string)
    requires '?' !in basePath && '?' !in kernelId
    ensures '?' !in ChannelsPath(basePath, kernelId)
  {
    var stripped := RStrip(basePath, '/');
    assert stripped == basePath[..|stripped|];
    assert '?' !in stripped;
  }

  lemma UnparseNoQuery(scheme: string, netloc: string, path: string)
    requires scheme == "ws" || scheme == "wss"
    requires '?' !in netloc && '?' !in path
    ensures '?' !in Unparse(scheme, netloc, path)
  {
  }
}
